=== FILE: README.md ===
# EmbedLog in Dafny

A model of the EmbedLog embedded logger and proofs about it.

A logger holds five things:
- a name;
- a format template, tokenized once when the logger is built;
- a severity threshold;
- a sink, which receives each finished line;
- a timestamp function, which a log call asks for the current date and time.

A log call works in five steps:
1. It refuses any message less urgent than the threshold.
2. It expands the message into a 256-byte buffer.
3. It renders the template's tokens into one line. The line holds literal text, bold zero-padded timestamp fields, the name in bold, the coloured level label, and the message.
4. It refuses the line if it is longer than 255 bytes. The terminal style sequences count toward that length.
5. Otherwise it hands the line to the sink exactly once.

The older API in `src/EmbedLog.cpp` is modelled as well:
- it prints a microsecond counter as `HH:MM:SS:uuuuuu`;
- it builds `<timestamp> [<LEVEL>] <message>`;
- it keeps an open/closed flag.

Modules, one file each:

| module | file | models |
|---|---|---|
| `Types` | `types.dfy` | severity levels and their ordinals, level labels, `TimeStamp`, token kinds, `Token` |
| `Errors` | `errors.dfy` | the result type, its name table and its text form |
| `Decimal` | `decimal.dfy` | `std::to_string` on naturals, `formatNumber`, and the value of a digit string |
| `Tokenizer` | `tokenizer.dfy` | `tokenizeFormat`: one loop pass (`ScanStep`), the loop with a fuel bound (`Run`), the total scan on templates where it ends (`Tokenize`), and its inverse (`Untokenize`) |
| `Renderer` | `renderer.dfy` | `formatOutput`, token by token |
| `Logger` | `logger.dfy` | the logger record, its constructor, `setLogLevel`, `defaultFormat`, the message buffer, and the `log` decision |
| `DefaultTemplate` | `default_template.dfy` | the default template's token sequence and the layout of the line it renders |
| `Legacy` | `legacy.dfy` | `getTimestamp`, `print`'s line, `open`, `close` and `setLogLevel` of the older API |

Every string in the model (name, template, message, rendered line) stands for the bytes of the C++ `std::string`, one `char` per byte. The length bounds of `log` and of the message buffer therefore count bytes, as the code does. A multi-byte UTF-8 character is that many model characters.

The sink and the clock are not called. `Logger.Log` takes the timestamp as an argument. It returns the result value together with the list of sink calls it would make, which holds none or one.

Three behaviours of the code are worth knowing. The model keeps all three as written.

- **A lone '%' at the end of a template stops the tokenizer from advancing.** The directive branch needs a character after the '%'. Without one, control reaches the literal scan, which stops at once on the '%'. It pushes an empty literal and leaves the index where it was.
  - The next pass repeats the same step, so the scan never reaches the end of the template. Each of those passes pushes another empty literal, so the token vector grows until allocation fails. The constructor then ends with `std::bad_alloc`, or the program aborts when exceptions are disabled.
  - `Tokenizer.LoopTerminatesIff` proves when the loop reaches the end: exactly when the trailing run of '%' has even length. Otherwise no number of passes gets it there.
  - The constructor (`Logger.Create`) therefore requires a template for which the loop finishes.
- **`log` never returns `InputLengthError`.** The enum's comment on `InputLengthError` (include/EmbedLog/Error.hpp:27) describes an error due to incorrect input length, which an over-long message would be. The code has only one message-length check, and it answers `OutputLengthError`. That check can never fire: `snprintf` into a 256-byte buffer leaves at most 255 bytes.
- **The older `print` ignores the threshold.** `setLogLevel` stores it, but `print` prints at every level.

## Model

| member | source | states |
|---|---|---|
| Types.Ordinal | include/EmbedLog/Types.hpp:32-43 | the underlying values run from 0 to 8, and only None has value 8 |
| Types.FromOrdinal | include/EmbedLog/Types.hpp:32-43 | every value 0..8 names exactly one enumerator |
| Types.OrdinalRoundTrip | include/EmbedLog/Types.hpp:32-43 | levels and underlying values correspond one to one |
| Types.LogLevelToString | include/EmbedLog/Types.hpp:54-83 | None's label is the plain "NONE"; every other label is a seven-character bold bright colour sequence, the level's upper-case name, then two resets |
| Types.LabelRoundTrip | include/EmbedLog/Types.hpp:56-83 | the level can be read back from its label |
| Types.LabelsInjective | include/EmbedLog/Types.hpp:56-83 | distinct levels have distinct labels |
| Types.LabelOfValue | include/EmbedLog/Types.hpp:54-87 | for a raw underlying value, the label is "UNKNOWN" exactly when the value exceeds 8, and for 0..8 the label reads back as the level with that value |
| Types.UnknownUnreachable | include/EmbedLog/Types.hpp:84-85 | the "UNKNOWN" default is never taken for an enum value |
| Types.ElevenTokenTypes | include/EmbedLog/Types.hpp:114-127 | there are exactly eleven distinct token kinds, and every kind is among them |
| Errors.ErrorOrdinal | include/EmbedLog/Error.hpp:24-30 | every error type's underlying value indexes the name table within bounds |
| Errors.ErrorFromOrdinal | include/EmbedLog/Error.hpp:24-30 | each value 0..3 names the error type with that underlying value |
| Errors.ErrorTypeNamesDistinct | include/EmbedLog/Error.hpp:35-38 | the table has four entries; distinct error types get names with distinct initials |
| Errors.ToString | include/EmbedLog/Error.hpp:59-62 | the text is the type's name, then ": ", then the message |
| Errors.ToStringInjective | include/EmbedLog/Error.hpp:59-62 | equal texts come only from equal errors |
| Decimal.ToDecimal | include/EmbedLog/EmbedLog.hpp:232 | the text is a non-empty digit string without leading zero whose value is the number |
| Decimal.FormatNumber | include/EmbedLog/EmbedLog.hpp:231-238 | the result is the number's digits behind only '0's; its value is the number; its length is the larger of the width and the digit count, so nothing is cut |
| Decimal.DecimalLength | include/EmbedLog/EmbedLog.hpp:231-238 | a number has at most w digits exactly when it is below 10^w |
| Decimal.FormatNumberExactWidth | include/EmbedLog/EmbedLog.hpp:233-236 | a number below 10^w padded to width w is exactly w characters |
| Decimal.DigitsDetermined | include/EmbedLog/EmbedLog.hpp:231-238 | digit strings of one length with one value are equal |
| Decimal.LastTwoDigits | include/EmbedLog/EmbedLog.hpp:249-251 | the last two digits of a digit string denote its value modulo 100 |
| Decimal.ValueOfPrefix | include/EmbedLog/EmbedLog.hpp:277-284 | dropping k trailing digits of a digit string drops k decimal digits from its value |
| Decimal.DropDigitsDivides | include/EmbedLog/EmbedLog.hpp:277-284 | dropping k decimal digits is truncating division by 10^k |
| Tokenizer.DirectiveChar | include/EmbedLog/EmbedLog.hpp:164-195 | each directive kind has a character that selects it, and that character is not '%' |
| Tokenizer.DirectiveCharRoundTrip | include/EmbedLog/EmbedLog.hpp:164-195 | exactly the ten characters Y M D h m s u N L T select directive kinds, each its own |
| Tokenizer.KindOf | include/EmbedLog/EmbedLog.hpp:164-199 | the directive switch; it has no contract of its own and is characterized by `Tokenizer.DirectiveChar` and `Tokenizer.DirectiveCharRoundTrip`: exactly Y M D h m s u N L T give directive kinds, every other character gives Literal |
| Tokenizer.RunEnd | include/EmbedLog/EmbedLog.hpp:154-158 | the run of a repeated character is maximal: every character up to its end is that character, and the next one is not |
| Tokenizer.LiteralEnd | include/EmbedLog/EmbedLog.hpp:207-211 | plain text runs up to the next '%' or the end, and contains no '%' |
| Tokenizer.ScanStep | include/EmbedLog/EmbedLog.hpp:139-212 | one loop pass: "%%" gives the literal "%" and advances two; "%c…c" gives the width of the maximal run (at least one) and the kind of c, with the verbatim run as text only for unknown c; plain text gives one literal up to the next '%'; a lone final '%' gives an empty literal and no progress, and that is the only case without progress |
| Tokenizer.DirectiveStep | include/EmbedLog/EmbedLog.hpp:150-203 | a '%' followed by a maximal run of w copies of a non-'%' character yields exactly that token and ends after the run |
| Tokenizer.LiteralStep | include/EmbedLog/EmbedLog.hpp:207-212 | a '%'-free stretch that ends at a '%' or at the end of the template yields exactly one literal token holding that stretch |
| Tokenizer.TrailingPercents | include/EmbedLog/EmbedLog.hpp:141-151 | counts the maximal run of '%' at the end of the template |
| Tokenizer.StepKeepsSafe | include/EmbedLog/EmbedLog.hpp:139-212 | from a position before an even trailing '%' run, every pass advances and keeps that property |
| Tokenizer.StepKeepsDoomed | include/EmbedLog/EmbedLog.hpp:139-212 | once the scan can reach a lone final '%', every pass keeps it so |
| Tokenizer.Tokenize | include/EmbedLog/EmbedLog.hpp:135-215 | every token has a well-formed shape: a directive has width at least one and empty text; a literal of width 0 is "%" or a non-empty stretch without '%'; a literal of width w ≥ 1 comes from an unknown directive and is '%' followed by a run of w copies of one character that is neither '%' nor a directive |
| Tokenizer.StepWellFormed | include/EmbedLog/EmbedLog.hpp:150-203 | every token a progressing pass pushes is well formed |
| Tokenizer.StepSourceText | include/EmbedLog/EmbedLog.hpp:139-212 | the token of a pass spells out exactly the characters that pass consumed |
| Tokenizer.UntokenizeFrom | include/EmbedLog/EmbedLog.hpp:135-215 | the tokens scanned from a position spell out the rest of the template |
| Tokenizer.TokenizeRoundTrip | include/EmbedLog/EmbedLog.hpp:135-215 | spelling out the tokens gives back the template |
| Tokenizer.TokenizeInjective | include/EmbedLog/EmbedLog.hpp:135-215 | distinct templates tokenize differently |
| Tokenizer.PlainTemplate | include/EmbedLog/EmbedLog.hpp:207-212 | a template without '%' gives one literal holding all of it, or no token when it is empty |
| Tokenizer.RunFinishes | include/EmbedLog/EmbedLog.hpp:139-213 | with enough fuel, the loop from a safe position ends with the tokens of the total scan |
| Tokenizer.RunNeverFinishes | include/EmbedLog/EmbedLog.hpp:139-213 | from a doomed position the loop exhausts any fuel |
| Tokenizer.Run | include/EmbedLog/EmbedLog.hpp:139-213 | the scanning loop with a bound on the number of passes; it has no contract of its own and is characterized by `Tokenizer.RunFinishes`, `Tokenizer.RunNeverFinishes` and `Tokenizer.LoopTerminatesIff` |
| Tokenizer.LoopTerminatesIff | include/EmbedLog/EmbedLog.hpp:139-213 | the loop ends, with the tokens of the total scan, exactly when the trailing '%' run is even; otherwise no number of passes reaches the end |
| Renderer.MicroDivisor | include/EmbedLog/EmbedLog.hpp:277-283 | the divisor loop computes 10^(6 - width) |
| Renderer.EffectiveMicro | include/EmbedLog/EmbedLog.hpp:275-285 | the microsecond value a Micro token shows; it has no contract of its own and is characterized by `Renderer.EffectiveMicroDivides` and `Renderer.LeadingDigits` |
| Renderer.EffectiveMicroDivides | include/EmbedLog/EmbedLog.hpp:273-285 | below width 6 the shown microseconds are the raw value divided by 10^(6 - width), truncating; from width 6 on, the raw value |
| Renderer.RenderToken | include/EmbedLog/EmbedLog.hpp:243-299 | one token's piece of the line; it has no contract of its own and is characterized by `Renderer.FieldShowsValue` (timestamp fields), `Renderer.LiteralsRenderVerbatim` (literals) and `DefaultTemplate.EndsWithTail` (name, level and text) |
| Renderer.FormatOutput | include/EmbedLog/EmbedLog.hpp:240-302 | the pieces of all tokens in order; it has no contract of its own and is characterized by `Renderer.FormatOutputAppend` and `Renderer.FormatOutputCons` |
| Renderer.FormatOutputAppend | include/EmbedLog/EmbedLog.hpp:240-302 | rendering a concatenation of token sequences concatenates their renderings |
| Renderer.FormatOutputCons | include/EmbedLog/EmbedLog.hpp:240-302 | one more token in front adds its piece in front |
| Renderer.LiteralsRenderVerbatim | include/EmbedLog/EmbedLog.hpp:245-246 | literal tokens render as their texts concatenated, whatever the runtime values |
| Renderer.FieldShowsValue | include/EmbedLog/EmbedLog.hpp:248-287 | a timestamp token renders as the bold style, a digit string whose value is the field's value and whose length is the larger of width and digit count, then a reset |
| Renderer.TwoDigitYear | include/EmbedLog/EmbedLog.hpp:248-257 | a year token of width 2 shows the last two digits of the year's decimal text |
| Renderer.LeadingDigits | include/EmbedLog/EmbedLog.hpp:273-286 | a microsecond value padded to six digits and cut to its first `width` digits is what a Micro token of that width shows |
| Renderer.MicroShowsLeadingDigits | include/EmbedLog/EmbedLog.hpp:273-286 | for microseconds below one second, a Micro token of width 1..6 renders the first `width` of the six padded digits, and the value fits an int |
| Renderer.PlainRendersVerbatim | include/EmbedLog/EmbedLog.hpp:245-246 | the tokens of a '%'-free template render as that template |
| Logger.Create | include/EmbedLog/EmbedLog.hpp:57-64 | the constructor keeps name and template, its tokens are those of the template, and its initial threshold None lets every level through |
| Logger.SetLogLevel | include/EmbedLog/EmbedLog.hpp:116 | the threshold is replaced; name, template and tokens are unchanged, and a consistent logger stays consistent |
| Logger.UpToNul | include/EmbedLog/EmbedLog.hpp:90 | the string built from the buffer is the longest prefix without NUL, ending just before the first NUL |
| Logger.BufferedMessage | include/EmbedLog/EmbedLog.hpp:88-90 | the message kept from the buffer is a NUL-free prefix of the expansion, at most 255 long, and stops only at the end, at 255 characters or at a NUL |
| Logger.ShortMessageKept | include/EmbedLog/EmbedLog.hpp:88-90 | a NUL-free expansion of at most 255 characters comes out of the buffer unchanged |
| Logger.ResultMessage | include/EmbedLog/EmbedLog.hpp:86-106 | the fixed text of each result `log` returns; it has no contract of its own, and `Logger.Log` states that every result carries it |
| Logger.Log | include/EmbedLog/EmbedLog.hpp:83-107 | LogLevelError exactly when the level is less urgent than the threshold; OutputLengthError exactly when it passes but the rendered line exceeds 255; Success exactly when it passes and the line fits. Only Success calls the sink, once, with the line and level. Each result carries its fixed message, and InputLengthError never occurs |
| Logger.MessageCheckUnreachable | include/EmbedLog/EmbedLog.hpp:88-94 | the length check on the buffered message never fires |
| Logger.ThresholdMonotone | include/EmbedLog/EmbedLog.hpp:85-86 | raising the threshold keeps every successful call successful, with the same line |
| Logger.SetLogLevelFilters | include/EmbedLog/EmbedLog.hpp:85-86 | after setting threshold t, a call is refused for its level exactly when the level's value exceeds t's, and then the sink is not called |
| Logger.WarningThreshold | include/EmbedLog/EmbedLog.hpp:85-86 | at threshold Warning, Info and Debug are refused while Error and Warning pass the filter |
| DefaultTemplate.DefaultFormatTokens | include/EmbedLog/EmbedLog.hpp:34 | the default template scans to completion into its twenty tokens: the date and time fields with widths 4,2,2,2,2,2,6, then name, level and text, with their literals |
| DefaultTemplate.DefaultLogger | include/EmbedLog/EmbedLog.hpp:57-64 | a logger built on the default template is consistent and holds exactly those tokens |
| DefaultTemplate.DefaultLineTail | include/EmbedLog/EmbedLog.hpp:289-297 | a default line is its timestamp part followed by "] [", the bold name, "] [", the level label, "] - ", a reset and the message |
| DefaultTemplate.EndsWithTail | include/EmbedLog/EmbedLog.hpp:289-297 | any token sequence ending with the default's last six tokens renders as its prefix followed by that tail text |
| Legacy.CDiv | src/EmbedLog.cpp:58-60 | `long` division truncates toward zero: what the quotient leaves over has the dividend's sign and is smaller than the divisor in magnitude, in [0, b) for a non-negative dividend and in (-b, 0] for a negative one |
| Legacy.CRem | src/EmbedLog.cpp:62-65 | the remainder takes the dividend's sign: for a non-negative dividend the usual remainder, for a negative one the negated remainder of its magnitude |
| Legacy.Decompose | src/EmbedLog.cpp:57-65 | for a non-negative counter the fields lie in [0,23], [0,59], [0,59] and [0,999999], and they reconstruct the counter modulo one day |
| Legacy.NegativeMirror | src/EmbedLog.cpp:57-65 | a negative counter gives the negated fields of its magnitude, each in (-modulus, 0], reconstructing minus the magnitude modulo one day |
| Legacy.PrintfInt | src/EmbedLog.cpp:69 | `%0wd` prints exactly max(w, sign + digit count) characters, one sign character for a negative value and none otherwise, so never fewer than w; a non-negative value prints as a digit string of that value; a negative one as '-' and the digits of its magnitude |
| Legacy.Negative | src/EmbedLog.cpp:69 | a negative value under `%0wd` is '-' then its magnitude zero-padded into the remaining places: exactly max(w, digit count + 1) characters, the part after the sign being a digit string of the magnitude |
| Legacy.PrintfWidth | src/EmbedLog.cpp:69 | a value with at most w digits prints in exactly w characters, or at most w + 1 when it is negative |
| Legacy.Truncate | src/EmbedLog.cpp:68-69 | a buffer of n characters keeps a prefix: all of a shorter text, else n - 1 characters |
| Legacy.ClockText | src/EmbedLog.cpp:69 | the four fields printed as `%02d:%02d:%02d:%06d`; it has no contract of its own and is characterized by `Legacy.ClockTextLayout` and `Legacy.ClockTextShort` |
| Legacy.Timestamp | src/EmbedLog.cpp:55-72 | `getTimestamp`; it has no contract of its own and is characterized by `Legacy.TimestampNeverTruncated` and `Legacy.TimestampRoundTrip` |
| Legacy.TimestampNeverTruncated | src/EmbedLog.cpp:68-71 | for every counter, negative ones included, the timestamp text has at most 19 characters and the 30-character buffer never cuts it |
| Legacy.ClockTextShort | src/EmbedLog.cpp:69 | fields below their moduli in magnitude print in at most 19 characters |
| Legacy.TimestampRoundTrip | src/EmbedLog.cpp:55-72 | for a non-negative counter the timestamp is exactly 15 characters, "HH:MM:SS:uuuuuu" with colons at 2, 5 and 8, and its fields read back as the decomposed time of day |
| Legacy.ClockTextLayout | src/EmbedLog.cpp:69 | a time of day prints as "HH:MM:SS:uuuuuu" and reads back unchanged |
| Legacy.LevelLabel | src/EmbedLog.cpp:31-45 | every level has its own label of at least four characters, and the label's first letter tells the level |
| Legacy.PrintLine | src/EmbedLog.cpp:28-48 | the line is the timestamp, " [", the level's label, "] ", then the message, at these positions |
| Legacy.PrintLineInjective | src/EmbedLog.cpp:28-48 | for non-negative counters, the time of day, the level and the message are recovered from the printed line |
| Legacy.AssembleInjective | src/EmbedLog.cpp:47 | with timestamps of one length, the timestamp, the level and the message are recovered from the assembled line |
| Legacy.Open | src/EmbedLog.cpp:16-20 | `open` leaves the logger open whatever the callback answers, returns the answer, and keeps the threshold |
| Legacy.Close | src/EmbedLog.cpp:22-26 | `close` leaves the logger closed whatever the callback answers, returns the answer, and keeps the threshold |
| Legacy.SetLevel | src/EmbedLog.cpp:50-53 | the threshold is replaced and the open flag kept |
| Legacy.LastSwitchWins | src/EmbedLog.cpp:16-26 | after open then close the logger is closed, and after close then open it is open; in each case the state equals that of the last call alone |

## Left out

- `snprintf` expansion of the message arguments (include/EmbedLog/EmbedLog.hpp:89). This is a variadic C call. The model takes the expanded text as an input and keeps only what the 256-byte buffer and the string built from it keep.
- The sink, the timestamp function, the microsecond counter and the open/close callbacks. These are I/O. Timestamps and counters are inputs, callback answers are inputs, and the sink call is returned as data. The real `log` asks the clock only after the level filter. The model takes the timestamp as an input and does not record whether the clock is read.
- The constructor and destructor of the older API (src/EmbedLog.cpp:5-14). The constructor stores the four callbacks and the initial threshold, then calls the open callback and ignores its answer. It does not set the open flag, whose initial value is declared in a header that is not part of this model. The destructor only calls the close callback. The model builds no logger there and starts from a given state, with its threshold and open flag.
- `operator<<` (include/EmbedLog/Error.hpp:73-77). It is stream I/O that writes the same text as `Errors.ToString`.
- Logger.Log: `static_cast<int>` of a microsecond value above the `int` range (include/EmbedLog/EmbedLog.hpp:286) is not modelled. `Logger.Log` and the renderer require every Micro token's shown value to fit an `int`.
- Tokenizer.Tokenize: templates ending in an odd run of '%' are not tokenized by the total function, because the loop never reaches their end. The loop itself is modelled as `Tokenizer.Run` with a fuel bound, and `Tokenizer.LoopTerminatesIff` proves it runs out of every fuel there.
- Tokenizer.Run: the memory the non-advancing passes use is not modelled. `Run` counts passes against a fuel bound and pushes its tokens into an unbounded sequence, so it runs out of fuel where the program runs out of memory and fails with `std::bad_alloc` or an abort.
- Multi-byte text: a UTF-8 character is several model characters, and the message buffer may cut one in half. The model does not decode UTF-8 and does not tell whether a byte sequence is well formed.
- The older `LogLevel` enum is not part of the shown headers. The model assumes it has exactly the four enumerators `print` handles: INFO, WARNING, ERROR and DEBUG.
- Integer widths: the `long` counter and the `int` fields of `getTimestamp` are unbounded integers. Every field is below 24, 60, 60 or 1,000,000 in magnitude, so the narrowing to `int` never changes a value. The counter's 64-bit range is not enforced. The token width, `static_cast<int>(k - j)` at include/EmbedLog/EmbedLog.hpp:159, is a `nat`: a run longer than the `int` range would need a template of more than two gigabytes. `Decimal.FormatNumber` therefore takes a `nat` width; the negative widths on which the C++ `formatNumber` would throw `std::length_error` cannot arise.
- The meaning of the terminal style sequences. They are treated as plain characters that count toward the line length.

=== FILE: decimal.dfy ===
/**
 * Decimal text of non-negative integers: `std::to_string` and the
 * zero-padding `formatNumber` helper of the renderer, together with the
 * value a digit string denotes.
 */
module Decimal {

  function Pow10(n: nat): (p: nat)
    ensures p >= 1
  {
    if n == 0 then 1 else 10 * Pow10(n - 1)
  }

  predicate IsDigit(c: char)
  {
    '0' <= c <= '9'
  }

  predicate AllDigits(s: string)
  {
    forall i :: 0 <= i < |s| ==> IsDigit(s[i])
  }

  function DigitChar(d: nat): (c: char)
    requires d < 10
    ensures IsDigit(c)
  {
    (d + '0' as int) as char
  }

  function DigitValue(c: char): (d: nat)
    requires IsDigit(c)
    ensures d < 10
    ensures DigitChar(d) == c
  {
    c as int - '0' as int
  }

  /** The number a digit string denotes, most significant digit first. */
  function Value(s: string): nat
    requires AllDigits(s)
  {
    if |s| == 0 then 0 else Value(s[..|s| - 1]) * 10 + DigitValue(s[|s| - 1])
  }

  /** `n` copies of `c`. */
  function Repeat(c: char, n: nat): (r: string)
    ensures |r| == n
    ensures forall m :: 0 <= m < n ==> r[m] == c
  {
    if n == 0 then "" else Repeat(c, n - 1) + [c]
  }

  /** `k` zero characters. */
  function Zeros(k: nat): (z: string)
    ensures |z| == k
    ensures forall i :: 0 <= i < k ==> z[i] == '0'
  {
    Repeat('0', k)
  }

  /** Shortest decimal text of `n` (what `std::to_string` yields for n >= 0). */
  function ToDecimal(n: nat): (s: string)
    ensures 1 <= |s|
    ensures AllDigits(s)
    ensures Value(s) == n
    ensures |s| > 1 ==> s[0] != '0'
    decreases n
  {
    if n < 10 then [DigitChar(n)]
    else
      var s := ToDecimal(n / 10) + [DigitChar(n % 10)];
      assert s[..|s| - 1] == ToDecimal(n / 10);
      s
  }

  function Max(a: int, b: int): int
  {
    if a < b then b else a
  }

  /**
   * `formatNumber`: the decimal text of `n`, left-padded with '0' up to
   * `width`; never shortened when it already has `width` digits or more.
   */
  function FormatNumber(n: nat, width: nat): (r: string)
    ensures |r| == Max(width, |ToDecimal(n)|)
    ensures AllDigits(r)
    ensures Value(r) == n
    ensures r[|r| - |ToDecimal(n)|..] == ToDecimal(n)
    ensures forall i :: 0 <= i < |r| - |ToDecimal(n)| ==> r[i] == '0'
  {
    var digits := ToDecimal(n);
    if |digits| < width then
      var r := Zeros(width - |digits|) + digits;
      LeadingZeros(width - |digits|, digits);
      assert r[|r| - |digits|..] == digits;
      r
    else digits
  }

  /** Leading zeros do not change the value of a digit string. */
  lemma {:induction false} LeadingZeros(k: nat, s: string)
    requires AllDigits(s)
    ensures AllDigits(Zeros(k) + s)
    ensures Value(Zeros(k) + s) == Value(s)
    decreases |s|
  {
    var z := Zeros(k) + s;
    assert forall i :: 0 <= i < |z| ==> z[i] == (if i < k then '0' else s[i - k]);
    if |s| == 0 {
      assert z == Zeros(k);
      ZerosValue(k);
    } else {
      var s' := s[..|s| - 1];
      assert z[..|z| - 1] == Zeros(k) + s';
      LeadingZeros(k, s');
    }
  }

  lemma {:induction false} ZerosValue(k: nat)
    ensures AllDigits(Zeros(k)) && Value(Zeros(k)) == 0
  {
    if k > 0 {
      var z := Zeros(k);
      ZerosValue(k - 1);
      assert z[..|z| - 1] == Zeros(k - 1);
      assert Value(z) == Value(Zeros(k - 1)) * 10 + DigitValue(z[k - 1]);
    }
  }

  /** A string of `k` digits denotes a number below 10^k. */
  lemma {:induction false} ValueBound(s: string)
    requires AllDigits(s)
    ensures Value(s) < Pow10(|s|)
  {
    if |s| > 0 {
      ValueBound(s[..|s| - 1]);
    }
  }

  /** `n` with its last `k` decimal digits dropped (k divisions by ten). */
  function DropDigits(n: nat, k: nat): nat
  {
    if k == 0 then n else DropDigits(n / 10, k - 1)
  }

  /** Dropping the last `k` digits of a digit string drops them from its value. */
  lemma {:induction false} ValueOfPrefix(s: string, k: nat)
    requires AllDigits(s) && k <= |s|
    ensures AllDigits(s[..|s| - k])
    ensures Value(s[..|s| - k]) == DropDigits(Value(s), k)
    decreases k
  {
    if k > 0 {
      var s' := s[..|s| - 1];
      assert s'[..|s'| - (k - 1)] == s[..|s| - k];
      ValueOfPrefix(s', k - 1);
      assert Value(s) == Value(s') * 10 + DigitValue(s[|s| - 1]);
      assert Value(s) / 10 == Value(s');
      assert DropDigits(Value(s), k) == DropDigits(Value(s) / 10, k - 1);
    } else {
      assert s[..|s|] == s;
    }
  }

  lemma TwoDigitValue(a: char, b: char)
    requires IsDigit(a) && IsDigit(b)
    ensures AllDigits([a, b])
    ensures Value([a, b]) == DigitValue(a) * 10 + DigitValue(b)
  {
    var ab, x := [a, b], [a];
    assert ab[..|ab| - 1] == x;
    assert x[..|x| - 1] == [];
    assert Value(x) == DigitValue(a);
    assert Value(ab) == Value(x) * 10 + DigitValue(b);
  }

  /** Unfolds the value of a digit string past its last two digits. */
  lemma {:induction false} SplitLastTwo(s: string)
    requires AllDigits(s) && |s| >= 2
    ensures AllDigits(s[..|s| - 2])
    ensures Value(s) == Value(s[..|s| - 2]) * 100 + (DigitValue(s[|s| - 2]) * 10 + DigitValue(s[|s| - 1]))
  {
    var n := |s|;
    var a, b := s[..n - 1], s[..n - 2];
    assert a[..|a| - 1] == b;
    assert a[|a| - 1] == s[n - 2];
    assert Value(a) == Value(b) * 10 + DigitValue(s[n - 2]);
    assert Value(s) == Value(a) * 10 + DigitValue(s[n - 1]);
  }

  /** The last two digits of a digit string denote its value modulo 100. */
  lemma {:induction false} LastTwoDigits(s: string)
    requires AllDigits(s) && |s| >= 2
    ensures AllDigits(s[|s| - 2..])
    ensures Value(s[|s| - 2..]) == Value(s) % 100
  {
    var n := |s|;
    assert s[n - 2..] == [s[n - 2], s[n - 1]];
    TwoDigitValue(s[n - 2], s[n - 1]);
    SplitLastTwo(s);
    DivideExactly(Value(s), 100, Value(s[..n - 2]), DigitValue(s[n - 2]) * 10 + DigitValue(s[n - 1]));
  }

  /** Digit strings of one length are equal exactly when their values are. */
  lemma {:induction false} DigitsDetermined(a: string, b: string)
    requires AllDigits(a) && AllDigits(b) && |a| == |b|
    requires Value(a) == Value(b)
    ensures a == b
    decreases |a|
  {
    if |a| > 0 {
      var n := |a| - 1;
      assert Value(a[..n]) == Value(b[..n]) && a[n] == b[n] by {
        assert Value(a) == Value(a[..n]) * 10 + DigitValue(a[n]);
        assert Value(b) == Value(b[..n]) * 10 + DigitValue(b[n]);
        assert DigitChar(DigitValue(a[n])) == a[n];
      }
      DigitsDetermined(a[..n], b[..n]);
      assert a == a[..n] + [a[n]];
      assert b == b[..n] + [b[n]];
    }
  }

  /** `n` has at most `w` digits exactly when it is below 10^w. */
  lemma {:induction false} DecimalLength(n: nat, w: nat)
    requires w >= 1
    ensures |ToDecimal(n)| <= w <==> n < Pow10(w)
    decreases n
  {
    PowAtLeastTen(w);
    if n >= 10 && w > 1 {
      DecimalLength(n / 10, w - 1);
      assert n < Pow10(w) <==> n / 10 < Pow10(w - 1);
    }
  }

  lemma {:induction false} PowAtLeastTen(w: nat)
    requires w >= 1
    ensures Pow10(w) >= 10
  {
    if w > 1 {
      PowAtLeastTen(w - 1);
    }
  }

  /** A number below 10^w padded to width w is exactly w digits long. */
  lemma FormatNumberExactWidth(n: nat, w: nat)
    requires w >= 1 && n < Pow10(w)
    ensures |FormatNumber(n, w)| == w
  {
    DecimalLength(n, w);
  }

  /** Dropping `k` digits is integer division by 10^k. */
  lemma {:induction false} DropDigitsDivides(n: nat, k: nat)
    ensures DropDigits(n, k) == n / Pow10(k)
    decreases k
  {
    if k > 0 {
      DropDigitsDivides(n / 10, k - 1);
      NestedDivision(n, Pow10(k - 1));
    }
  }

  /** Dropping digits never makes a number larger. */
  lemma {:induction false} DropDigitsShrinks(n: nat, k: nat)
    ensures DropDigits(n, k) <= n
    decreases k
  {
    if k > 0 {
      DropDigitsShrinks(n / 10, k - 1);
    }
  }

  /** Dividing by ten and then by `b` is dividing by 10 * b. */
  lemma NestedDivision(n: nat, b: nat)
    requires b >= 1
    ensures (n / 10) / b == n / (10 * b)
  {
    var q, r2, r1 := (n / 10) / b, (n / 10) % b, n % 10;
    assert n / 10 == q * b + r2;
    assert n == 10 * (q * b + r2) + r1;
    assert n == q * (10 * b) + (10 * r2 + r1);
    assert 10 * r2 + r1 < 10 * b;
    DivideExactly(n, 10 * b, q, 10 * r2 + r1);
  }

  /** Quotient and remainder are determined by any exact split. */
  lemma DivideExactly(a: nat, d: nat, q: nat, r: nat)
    requires d > 0 && r < d && a == q * d + r
    ensures a / d == q && a % d == r
  {
    var q', r' := a / d, a % d;
    var k := q - q';
    assert k * d == q * d - q' * d;
    assert k * d == r' - r;
    MultipleBounds(k, d);
  }

  /** A non-zero multiple of `d` is at least `d` away from zero. */
  lemma MultipleBounds(k: int, d: int)
    requires d >= 0
    ensures k >= 1 ==> k * d >= d
    ensures k <= -1 ==> k * d <= -d
  {
    if k >= 1 {
      assert k * d == d + (k - 1) * d;
    } else if k <= -1 {
      assert k * d == -d - (-k - 1) * d;
    }
  }
}

=== FILE: default_template.dfy ===
/**
 * The default template "[%YYYY:%MM:%DD:%hh:%mm:%ss.%uuuuuu] [%N] [%L] - %T",
 * scanned pass by pass: the token sequence a logger built without an
 * explicit template works with, and the line layout it produces.
 */
module DefaultTemplate {
  import opened Types
  import opened Tokenizer
  import opened Renderer
  import opened Logger

  /** The tokens of the default template, in order. */
  const DefaultTokens: seq<Token> :=
    [Token(Literal, 0, "["), Token(Year, 4, ""), Token(Literal, 0, ":"), Token(Month, 2, ""), Token(Literal, 0, ":")]
    + [Token(Day, 2, ""), Token(Literal, 0, ":"), Token(Hour, 2, ""), Token(Literal, 0, ":"), Token(Minute, 2, "")]
    + [Token(Literal, 0, ":"), Token(Second, 2, ""), Token(Literal, 0, "."), Token(Micro, 6, ""), Token(Literal, 0, "] [")]
    + [Token(Name, 1, ""), Token(Literal, 0, "] ["), Token(Level, 1, ""), Token(Literal, 0, "] - "), Token(Text, 1, "")]

  /** Where each of the default template's tokens starts, and where the last one ends. */
  const DefaultStarts: seq<nat> :=
    [0, 1, 6, 7, 10] + [11, 14, 15, 18, 19] + [22, 23, 26, 27, 34] + [37, 39, 42, 44, 48] + [50]

  /** The default template is accepted by the scan and yields `DefaultTokens`. */
  lemma DefaultFormatTokens()
    ensures Tokenizes(DefaultFormat)
    ensures Tokenize(DefaultFormat) == DefaultTokens
  {
    DefaultFrom(0);
  }

  /** The scan of the default template from the start of its `n`-th token on. */
  lemma {:induction false} DefaultFrom(n: nat)
    requires n <= |DefaultTokens|
    ensures Tokenizes(DefaultFormat) && Safe(DefaultFormat, DefaultStarts[n])
    ensures TokenizeFrom(DefaultFormat, DefaultStarts[n]) == DefaultTokens[n..]
    decreases |DefaultTokens| - n
  {
    assert TrailingPercents(DefaultFormat) == 0;
    if n < |DefaultTokens| {
      DefaultStep(n);
      DefaultFrom(n + 1);
      assert DefaultTokens[n..] == [DefaultTokens[n]] + DefaultTokens[n + 1..];
    }
  }

  /**
   * One pass of the scan over the default template.
   *
   * The twenty passes are proved one per lemma (`DefaultStep0` to
   * `DefaultStep19`) and dispatched in groups of five. Each pass unfolds
   * `ScanStep` on the 50-character template. A proof that holds several
   * such unfoldings at once is far more expensive for the solver than the
   * sum of the single passes, so no lemma here holds more than one.
   */
  lemma DefaultStep(n: nat)
    requires n < |DefaultTokens|
    ensures ScanStep(DefaultFormat, DefaultStarts[n]) == Step(DefaultTokens[n], DefaultStarts[n + 1])
  {
    if n < 5 {
      DefaultSteps0(n);
    } else if n < 10 {
      DefaultSteps5(n);
    } else if n < 15 {
      DefaultSteps10(n);
    } else {
      DefaultSteps15(n);
    }
  }

  lemma DefaultSteps0(n: nat)
    requires 0 <= n < 5
    ensures ScanStep(DefaultFormat, DefaultStarts[n]) == Step(DefaultTokens[n], DefaultStarts[n + 1])
  {
    if n == 0 {
      DefaultStep0();
    } else if n == 1 {
      DefaultStep1();
    } else if n == 2 {
      DefaultStep2();
    } else if n == 3 {
      DefaultStep3();
    } else {
      DefaultStep4();
    }
  }

  lemma DefaultSteps5(n: nat)
    requires 5 <= n < 10
    ensures ScanStep(DefaultFormat, DefaultStarts[n]) == Step(DefaultTokens[n], DefaultStarts[n + 1])
  {
    if n == 5 {
      DefaultStep5();
    } else if n == 6 {
      DefaultStep6();
    } else if n == 7 {
      DefaultStep7();
    } else if n == 8 {
      DefaultStep8();
    } else {
      DefaultStep9();
    }
  }

  lemma DefaultSteps10(n: nat)
    requires 10 <= n < 15
    ensures ScanStep(DefaultFormat, DefaultStarts[n]) == Step(DefaultTokens[n], DefaultStarts[n + 1])
  {
    if n == 10 {
      DefaultStep10();
    } else if n == 11 {
      DefaultStep11();
    } else if n == 12 {
      DefaultStep12();
    } else if n == 13 {
      DefaultStep13();
    } else {
      DefaultStep14();
    }
  }

  lemma DefaultSteps15(n: nat)
    requires 15 <= n < 20
    ensures ScanStep(DefaultFormat, DefaultStarts[n]) == Step(DefaultTokens[n], DefaultStarts[n + 1])
  {
    if n == 15 {
      DefaultStep15();
    } else if n == 16 {
      DefaultStep16();
    } else if n == 17 {
      DefaultStep17();
    } else if n == 18 {
      DefaultStep18();
    } else {
      DefaultStep19();
    }
  }

  lemma DefaultStep0()
    ensures ScanStep(DefaultFormat, 0) == Step(Token(Literal, 0, "["), 1)
  {
    var d := DefaultFormat;
    LiteralStep(d, 0, 1);
  }

  lemma DefaultStep1()
    ensures ScanStep(DefaultFormat, 1) == Step(Token(Year, 4, ""), 6)
  {
    var d := DefaultFormat;
    DirectiveStep(d, 1, 4);
  }

  lemma DefaultStep2()
    ensures ScanStep(DefaultFormat, 6) == Step(Token(Literal, 0, ":"), 7)
  {
    var d := DefaultFormat;
    LiteralStep(d, 6, 7);
  }

  lemma DefaultStep3()
    ensures ScanStep(DefaultFormat, 7) == Step(Token(Month, 2, ""), 10)
  {
    var d := DefaultFormat;
    DirectiveStep(d, 7, 2);
  }

  lemma DefaultStep4()
    ensures ScanStep(DefaultFormat, 10) == Step(Token(Literal, 0, ":"), 11)
  {
    var d := DefaultFormat;
    LiteralStep(d, 10, 11);
  }

  lemma DefaultStep5()
    ensures ScanStep(DefaultFormat, 11) == Step(Token(Day, 2, ""), 14)
  {
    var d := DefaultFormat;
    DirectiveStep(d, 11, 2);
  }

  lemma DefaultStep6()
    ensures ScanStep(DefaultFormat, 14) == Step(Token(Literal, 0, ":"), 15)
  {
    var d := DefaultFormat;
    LiteralStep(d, 14, 15);
  }

  lemma DefaultStep7()
    ensures ScanStep(DefaultFormat, 15) == Step(Token(Hour, 2, ""), 18)
  {
    var d := DefaultFormat;
    DirectiveStep(d, 15, 2);
  }

  lemma DefaultStep8()
    ensures ScanStep(DefaultFormat, 18) == Step(Token(Literal, 0, ":"), 19)
  {
    var d := DefaultFormat;
    LiteralStep(d, 18, 19);
  }

  lemma DefaultStep9()
    ensures ScanStep(DefaultFormat, 19) == Step(Token(Minute, 2, ""), 22)
  {
    var d := DefaultFormat;
    DirectiveStep(d, 19, 2);
  }

  lemma DefaultStep10()
    ensures ScanStep(DefaultFormat, 22) == Step(Token(Literal, 0, ":"), 23)
  {
    var d := DefaultFormat;
    LiteralStep(d, 22, 23);
  }

  lemma DefaultStep11()
    ensures ScanStep(DefaultFormat, 23) == Step(Token(Second, 2, ""), 26)
  {
    var d := DefaultFormat;
    DirectiveStep(d, 23, 2);
  }

  lemma DefaultStep12()
    ensures ScanStep(DefaultFormat, 26) == Step(Token(Literal, 0, "."), 27)
  {
    var d := DefaultFormat;
    LiteralStep(d, 26, 27);
  }

  lemma DefaultStep13()
    ensures ScanStep(DefaultFormat, 27) == Step(Token(Micro, 6, ""), 34)
  {
    var d := DefaultFormat;
    DirectiveStep(d, 27, 6);
  }

  lemma DefaultStep14()
    ensures ScanStep(DefaultFormat, 34) == Step(Token(Literal, 0, "] ["), 37)
  {
    var d := DefaultFormat;
    LiteralStep(d, 34, 37);
  }

  lemma DefaultStep15()
    ensures ScanStep(DefaultFormat, 37) == Step(Token(Name, 1, ""), 39)
  {
    var d := DefaultFormat;
    DirectiveStep(d, 37, 1);
  }

  lemma DefaultStep16()
    ensures ScanStep(DefaultFormat, 39) == Step(Token(Literal, 0, "] ["), 42)
  {
    var d := DefaultFormat;
    LiteralStep(d, 39, 42);
  }

  lemma DefaultStep17()
    ensures ScanStep(DefaultFormat, 42) == Step(Token(Level, 1, ""), 44)
  {
    var d := DefaultFormat;
    DirectiveStep(d, 42, 1);
  }

  lemma DefaultStep18()
    ensures ScanStep(DefaultFormat, 44) == Step(Token(Literal, 0, "] - "), 48)
  {
    var d := DefaultFormat;
    LiteralStep(d, 44, 48);
  }

  lemma DefaultStep19()
    ensures ScanStep(DefaultFormat, 48) == Step(Token(Text, 1, ""), 50)
  {
    var d := DefaultFormat;
    DirectiveStep(d, 48, 1);
  }

  /** A logger built on the default template works with `DefaultTokens`. */
  lemma DefaultLogger(name: string)
    ensures Tokenizes(DefaultFormat)
    ensures Valid(Create(name, DefaultFormat))
    ensures Create(name, DefaultFormat).tokens == DefaultTokens
  {
    DefaultFormatTokens();
  }

  /** The default template's last three tokens: the level, a dash and the message. */
  const LevelTail: seq<Token> := [Token(Level, 1, ""), Token(Literal, 0, "] - "), Token(Text, 1, "")]

  /** The default template's last five tokens: the bracketed name onwards. */
  const NameTail: seq<Token> := [Token(Name, 1, ""), Token(Literal, 0, "] [")] + LevelTail

  /** The default template's last six tokens. */
  const DefaultTail: seq<Token> := [Token(Literal, 0, "] [")] + NameTail

  /**
   * What the last six tokens render to: the name in bold, the level label
   * and, after a reset, the message, each in its brackets or after its dash.
   */
  function TailText(name: string, message: string, levelStr: string): string
  {
    "] [" + ((Bold + name + Reset) + ("] [" + (levelStr + ("] - " + (Reset + message)))))
  }

  /** A default line is its timestamp part followed by the tail text. */
  lemma DefaultLineTail(name: string, message: string, ts: TimeStamp, levelStr: string)
    requires CastsSafely(DefaultTokens, ts)
    ensures CastsSafely(DefaultTokens[..14], ts)
    ensures FormatOutput(DefaultTokens, name, message, ts, levelStr)
         == FormatOutput(DefaultTokens[..14], name, message, ts, levelStr) + TailText(name, message, levelStr)
  {
    DefaultSplit();
    EndsWithTail(DefaultTokens, 14, name, message, ts, levelStr);
  }

  lemma DefaultSplit()
    ensures DefaultTokens == DefaultTokens[..14] + DefaultTail
  {
    assert DefaultTokens[14..] == DefaultTail;
  }

  /** Any token sequence ending in the default tail renders to its prefix's text and the tail text. */
  lemma EndsWithTail(tokens: seq<Token>, k: nat, name: string, message: string, ts: TimeStamp, levelStr: string)
    requires k <= |tokens| && tokens == tokens[..k] + DefaultTail
    requires CastsSafely(tokens, ts)
    ensures CastsSafely(tokens[..k], ts)
    ensures FormatOutput(tokens, name, message, ts, levelStr)
         == FormatOutput(tokens[..k], name, message, ts, levelStr) + TailText(name, message, levelStr)
  {
    CastsSafelyPrefix(tokens, k, ts);
    TailRender(name, message, ts, levelStr);
    FormatOutputAppend(tokens[..k], DefaultTail, name, message, ts, levelStr);
  }

  lemma TailRender(name: string, message: string, ts: TimeStamp, levelStr: string)
    ensures CastsSafely(DefaultTail, ts)
    ensures FormatOutput(DefaultTail, name, message, ts, levelStr) == TailText(name, message, levelStr)
  {
    NameTailRender(name, message, ts, levelStr);
    FormatOutputCons(Token(Literal, 0, "] ["), NameTail, name, message, ts, levelStr);
  }

  lemma NameTailRender(name: string, message: string, ts: TimeStamp, levelStr: string)
    ensures CastsSafely(NameTail, ts)
    ensures FormatOutput(NameTail, name, message, ts, levelStr)
         == (Bold + name + Reset) + ("] [" + (levelStr + ("] - " + (Reset + message))))
  {
    var t1, t2 := Token(Name, 1, ""), Token(Literal, 0, "] [");
    LevelTailRender(name, message, ts, levelStr);
    FormatOutputCons(t2, LevelTail, name, message, ts, levelStr);
    FormatOutputCons(t1, [t2] + LevelTail, name, message, ts, levelStr);
    assert NameTail == [t1] + ([t2] + LevelTail);
  }

  lemma LevelTailRender(name: string, message: string, ts: TimeStamp, levelStr: string)
    ensures CastsSafely(LevelTail, ts)
    ensures FormatOutput(LevelTail, name, message, ts, levelStr) == levelStr + ("] - " + (Reset + message))
  {
    var t3, t4, t5 := Token(Level, 1, ""), Token(Literal, 0, "] - "), Token(Text, 1, "");
    FormatOutputCons(t5, [], name, message, ts, levelStr);
    assert [t5] + [] == [t5];
    FormatOutputCons(t4, [t5], name, message, ts, levelStr);
    FormatOutputCons(t3, [t4] + [t5], name, message, ts, levelStr);
    assert LevelTail == [t3] + ([t4] + [t5]);
  }
}

=== FILE: errors.dfy ===
/**
 * The result value every log call returns, and its text form
 * "<type name>: <message>".
 */
module Errors {

  datatype EmbedLogErrorType = Success | InputLengthError | OutputLengthError | LogLevelError

  /** Underlying value of the enum. */
  function ErrorOrdinal(e: EmbedLogErrorType): (o: nat)
    ensures o < |ErrorTypeNames|
  {
    match e
    case Success => 0
    case InputLengthError => 1
    case OutputLengthError => 2
    case LogLevelError => 3
  }

  /** The enumerator whose underlying value is `o`. */
  function ErrorFromOrdinal(o: nat): (e: EmbedLogErrorType)
    requires o < |ErrorTypeNames|
    ensures ErrorOrdinal(e) == o
  {
    if o == 0 then Success
    else if o == 1 then InputLengthError
    else if o == 2 then OutputLengthError
    else LogLevelError
  }

  /** Name table indexed by the underlying value. */
  const ErrorTypeNames: seq<string> :=
    ["Success", "Input Length Error", "Output Length Error", "Log Level Error"]

  /** Name of an error type, read from the table. */
  function ErrorTypeName(e: EmbedLogErrorType): (name: string)
    ensures |name| > 0
  {
    ErrorTypeNames[ErrorOrdinal(e)]
  }

  /** The table has four entries and no two error types share a name. */
  lemma ErrorTypeNamesDistinct(a: EmbedLogErrorType, b: EmbedLogErrorType)
    ensures |ErrorTypeNames| == 4
    ensures ErrorFromOrdinal(ErrorOrdinal(a)) == a
    ensures a != b ==> ErrorTypeName(a)[0] != ErrorTypeName(b)[0]
  {
  }

  datatype EmbedLogError = EmbedLogError(error: EmbedLogErrorType, message: string)

  /** Text form: the type's name, a colon and a space, then the message. */
  function ToString(e: EmbedLogError): (s: string)
    ensures |s| == |ErrorTypeName(e.error)| + 2 + |e.message|
    ensures s[..|ErrorTypeName(e.error)|] == ErrorTypeName(e.error)
    ensures s[|ErrorTypeName(e.error)|..|ErrorTypeName(e.error)| + 2] == ": "
    ensures s[|s| - |e.message|..] == e.message
  {
    ErrorTypeName(e.error) + ": " + e.message
  }

  /**
   * The text form loses nothing: equal texts come from equal errors, so in
   * particular errors of different types never print alike.
   */
  lemma ToStringInjective(a: EmbedLogError, b: EmbedLogError)
    requires ToString(a) == ToString(b)
    ensures a == b
  {
    var sa, sb := ToString(a), ToString(b);
    ErrorTypeNamesDistinct(a.error, b.error);
    assert sa[0] == ErrorTypeName(a.error)[0];
    assert sb[0] == ErrorTypeName(b.error)[0];
    assert a.error == b.error;
    assert |a.message| == |b.message|;
    assert a.message == sa[|sa| - |a.message|..];
  }
}

=== FILE: legacy.dfy ===
/**
 * The older logger API: a microsecond counter decomposed into a time of
 * day and printed as "HH:MM:SS:uuuuuu", the printed line
 * "<timestamp> [<LEVEL>] <message>", and the open/close flag.
 *
 * The counter is a C `long`; its divisions and remainders truncate toward
 * zero, which Dafny's Euclidean `/` and `%` do not, so they are written out.
 */
module Legacy {
  import opened Decimal

  /**
   * C integer division: the quotient truncated toward zero, so that what is
   * left over has the dividend's sign and is smaller than the divisor.
   */
  function CDiv(a: int, b: int): (q: int)
    requires b > 0
    ensures a >= 0 ==> 0 <= a - q * b < b
    ensures a < 0 ==> -b < a - q * b <= 0
  {
    if a >= 0 then a / b else -((-a) / b)
  }

  /** C `%`: the remainder that goes with the truncated quotient, signed like `a`. */
  function CRem(a: int, b: int): (r: int)
    requires b > 0
    ensures a >= 0 ==> r == a % b
    ensures a < 0 ==> r == -((-a) % b)
  {
    a - CDiv(a, b) * b
  }

  const MicrosPerSecond: int := 1_000_000
  const MicrosPerDay: int := 86_400_000_000

  /** The four fields `getTimestamp` prints. */
  datatype Clock = Clock(hour: int, minute: int, second: int, microsec: int)

  predicate InDay(c: Clock)
  {
    && 0 <= c.hour < 24
    && 0 <= c.minute < 60
    && 0 <= c.second < 60
    && 0 <= c.microsec < MicrosPerSecond
  }

  /** Microseconds since midnight the fields stand for. */
  function ClockMicros(c: Clock): int
  {
    ((c.hour * 60 + c.minute) * 60 + c.second) * MicrosPerSecond + c.microsec
  }

  /** Every field negated. */
  function Negated(c: Clock): Clock
  {
    Clock(-c.hour, -c.minute, -c.second, -c.microsec)
  }

  /**
   * `getTimestamp`'s arithmetic: whole seconds, minutes and hours by
   * truncating division, then each field as a remainder.
   */
  function Decompose(us: int): (c: Clock)
    ensures us >= 0 ==> InDay(c) && ClockMicros(c) == us % MicrosPerDay
  {
    var seconds := CDiv(us, MicrosPerSecond);
    var minutes := CDiv(seconds, 60);
    var hours := CDiv(minutes, 60);
    var c := Clock(CRem(hours, 24), CRem(minutes, 60), CRem(seconds, 60), CRem(us, MicrosPerSecond));
    if us >= 0 then
      DayRemainder(us, hours / 24, c);
      c
    else c
  }

  /** The split of a non-negative counter into whole days and the time of day. */
  lemma {:induction false} DayRemainder(us: int, days: int, c: Clock)
    requires us >= 0 && days >= 0
    requires c.microsec == us % MicrosPerSecond
    requires c.second == (us / MicrosPerSecond) % 60
    requires c.minute == (us / MicrosPerSecond / 60) % 60
    requires c.hour == (us / MicrosPerSecond / 60 / 60) % 24
    requires days == us / MicrosPerSecond / 60 / 60 / 24
    ensures InDay(c)
    ensures ClockMicros(c) == us % MicrosPerDay
  {
    var s := us / MicrosPerSecond;
    var m := s / 60;
    var h := m / 60;
    assert us == s * MicrosPerSecond + c.microsec;
    assert s == m * 60 + c.second;
    assert m == h * 60 + c.minute;
    assert h == days * 24 + c.hour;
    assert us == days * MicrosPerDay + ClockMicros(c);
    DivideExactly(us, MicrosPerDay, days, ClockMicros(c));
  }

  /**
   * A negative counter decomposes into the negated fields of its magnitude:
   * every field is zero or negative and the time of day runs backwards.
   */
  lemma {:induction false} NegativeMirror(us: int)
    requires us < 0
    ensures Decompose(us) == Negated(Decompose(-us))
    ensures var c := Decompose(us);
      && -24 < c.hour <= 0 && -60 < c.minute <= 0 && -60 < c.second <= 0 && -MicrosPerSecond < c.microsec <= 0
      && ClockMicros(c) == -((-us) % MicrosPerDay)
  {
    var seconds := CDiv(-us, MicrosPerSecond);
    var minutes := CDiv(seconds, 60);
    var hours := CDiv(minutes, 60);
    TruncationMirrors(-us, MicrosPerSecond);
    TruncationMirrors(seconds, 60);
    TruncationMirrors(minutes, 60);
    TruncationMirrors(hours, 24);
  }

  /** Truncating division and remainder of `-a` are those of `a`, negated. */
  lemma {:induction false} TruncationMirrors(a: int, b: int)
    requires a >= 0 && b > 0
    ensures CDiv(-a, b) == -CDiv(a, b)
    ensures CRem(-a, b) == -CRem(a, b)
  {
    var q := CDiv(a, b);
    if a == 0 {
      DivideExactly(0, b, 0, 0);
    }
    assert CDiv(-a, b) == -q;
    assert CRem(-a, b) == -a - (-q) * b;
  }

  /** The absolute value, as `%d` prints it after any sign. */
  function Magnitude(n: int): nat
  {
    if n >= 0 then n else -n
  }

  /**
   * `%0<width>d`: the decimal text of `n` zero-padded to `width`; a
   * negative number carries its '-' inside the width, before the zeros.
   */
  function PrintfInt(n: int, width: nat): (r: string)
    requires width >= 1
    ensures |r| == Max(width, |ToDecimal(Magnitude(n))| + (if n < 0 then 1 else 0))
    ensures |r| >= width
    ensures n >= 0 ==> AllDigits(r) && Value(r) == n
    ensures n < 0 ==> |r| >= 2 && r[0] == '-' && AllDigits(r[1..]) && Value(r[1..]) == -n
  {
    if n >= 0 then FormatNumber(n, width) else Negative(-n, width)
  }

  /** The negative case of `%0<width>d`: the sign, then the magnitude padded to the remaining places. */
  function Negative(m: nat, width: nat): (r: string)
    requires width >= 1
    ensures |r| == Max(width, |ToDecimal(m)| + 1)
    ensures |r| >= 2 && r[0] == '-' && AllDigits(r[1..]) && Value(r[1..]) == m
  {
    var digits := FormatNumber(m, width - 1);
    SignedLength(digits, width, |ToDecimal(m)|);
    assert ("-" + digits)[1..] == digits;
    "-" + digits
  }

  /** The sign takes one of the `width` places, or adds one to `k` digits. */
  lemma SignedLength(digits: string, width: nat, k: nat)
    requires width >= 1 && |digits| == Max(width - 1, k)
    ensures |"-" + digits| == Max(width, k + 1)
  {
  }

  /** The timestamp as `snprintf` lays it out, before the buffer bound. */
  function ClockText(c: Clock): string
  {
    PrintfInt(c.hour, 2) + ":" + PrintfInt(c.minute, 2) + ":" + PrintfInt(c.second, 2) + ":" + PrintfInt(c.microsec, 6)
  }

  /** Size of `getTimestamp`'s character buffer, terminator included. */
  const TimestampBuffer: nat := 30

  /** What survives `snprintf` into a buffer of `size` characters. */
  function Truncate(s: string, size: nat): (r: string)
    requires size >= 1
    ensures r <= s
    ensures |r| == if |s| < size then |s| else size - 1
  {
    if |s| < size then s else s[..size - 1]
  }

  /** `getTimestamp`: the decomposed counter, printed into the 30-character buffer. */
  function Timestamp(us: int): string
  {
    Truncate(ClockText(Decompose(us)), TimestampBuffer)
  }

  /**
   * `%0<width>d` of a value with at most `width` digits is exactly `width`
   * characters long, one more at most when a sign has to be added.
   */
  lemma {:induction false} PrintfWidth(n: int, width: nat)
    requires width >= 1
    requires n < Pow10(width) && 0 < n + Pow10(width)
    ensures n >= 0 ==> |PrintfInt(n, width)| == width
    ensures n < 0 ==> width <= |PrintfInt(n, width)| <= width + 1
  {
    if n >= 0 {
      FormatNumberExactWidth(n, width);
    } else {
      var m: nat := -n;
      DecimalLength(m, width);
      MagnitudeLength(m, width);
    }
  }

  /** The magnitude of a negative value, padded to one place less than its width. */
  lemma {:induction false} MagnitudeLength(m: nat, width: nat)
    requires width >= 1 && |ToDecimal(m)| <= width
    ensures |FormatNumber(m, width - 1)| <= width
  {
  }

  /**
   * The timestamp never reaches the buffer bound: whatever the counter,
   * negative ones included, the text has at most 19 characters.
   */
  lemma {:induction false} TimestampNeverTruncated(us: int)
    ensures |ClockText(Decompose(us))| <= 19
    ensures Timestamp(us) == ClockText(Decompose(us))
  {
    if us < 0 {
      NegativeMirror(us);
    }
    ClockTextShort(Decompose(us));
  }

  /** Fields below their moduli in magnitude print in at most 19 characters. */
  lemma {:induction false} ClockTextShort(c: Clock)
    requires -24 < c.hour < 24 && -60 < c.minute < 60 && -60 < c.second < 60
    requires -MicrosPerSecond < c.microsec < MicrosPerSecond
    ensures |ClockText(c)| <= 19
  {
    assert Pow10(2) == 100;
    assert Pow10(6) == MicrosPerSecond;
    PrintfWidth(c.hour, 2);
    PrintfWidth(c.minute, 2);
    PrintfWidth(c.second, 2);
    PrintfWidth(c.microsec, 6);
  }

  /** Reads the four fields back from an "HH:MM:SS:uuuuuu" text. */
  function ParseClock(t: string): Clock
    requires |t| == 15
    requires AllDigits(t[0..2]) && AllDigits(t[3..5]) && AllDigits(t[6..8]) && AllDigits(t[9..15])
  {
    Clock(Value(t[0..2]), Value(t[3..5]), Value(t[6..8]), Value(t[9..15]))
  }

  /**
   * For a non-negative counter the timestamp is exactly "HH:MM:SS:uuuuuu":
   * fifteen characters, colons at 2, 5 and 8, and fields that read back
   * as the decomposed time of day.
   */
  lemma {:induction false} TimestampRoundTrip(us: int)
    requires us >= 0
    ensures var t := Timestamp(us);
      && |t| == 15
      && t[2] == ':' && t[5] == ':' && t[8] == ':'
      && AllDigits(t[0..2]) && AllDigits(t[3..5]) && AllDigits(t[6..8]) && AllDigits(t[9..15])
      && ParseClock(t) == Decompose(us)
  {
    TimestampNeverTruncated(us);
    ClockTextLayout(Decompose(us));
  }

  /** A time of day prints as "HH:MM:SS:uuuuuu" and reads back unchanged. */
  lemma {:induction false} ClockTextLayout(c: Clock)
    requires InDay(c)
    ensures var t := ClockText(c);
      && |t| == 15
      && t[2] == ':' && t[5] == ':' && t[8] == ':'
      && AllDigits(t[0..2]) && AllDigits(t[3..5]) && AllDigits(t[6..8]) && AllDigits(t[9..15])
      && ParseClock(t) == c
  {
    assert Pow10(2) == 100;
    assert Pow10(6) == MicrosPerSecond;
    PrintfWidth(c.hour, 2);
    PrintfWidth(c.minute, 2);
    PrintfWidth(c.second, 2);
    PrintfWidth(c.microsec, 6);
    ColonFields(PrintfInt(c.hour, 2), PrintfInt(c.minute, 2), PrintfInt(c.second, 2), PrintfInt(c.microsec, 6));
  }

  /** Positions of the fields in "HH:MM:SS:uuuuuu". */
  lemma {:induction false} ColonFields(h: string, m: string, s: string, u: string)
    requires |h| == 2 && |m| == 2 && |s| == 2 && |u| == 6
    ensures var t := h + ":" + m + ":" + s + ":" + u;
      && |t| == 15
      && t[2] == ':' && t[5] == ':' && t[8] == ':'
      && t[0..2] == h && t[3..5] == m && t[6..8] == s && t[9..15] == u
  {
  }

  /** Severity levels of the older API. */
  datatype Level = Info | Warning | Error | Debug

  /** Reads a level back from the first letter of its label. */
  function LevelOfInitial(c: char): Level
  {
    if c == 'I' then Info else if c == 'W' then Warning else if c == 'E' then Error else Debug
  }

  /** The word `print` puts between the brackets; its first letter tells the level. */
  function LevelLabel(level: Level): (s: string)
    ensures |s| >= 4
    ensures LevelOfInitial(s[0]) == level
  {
    match level
    case Info => "INFO"
    case Warning => "WARNING"
    case Error => "ERROR"
    case Debug => "DEBUG"
  }

  /** The logger's flag and threshold. */
  datatype LegacyState = LegacyState(isOpen: bool, logLevel: Level)

  /**
   * `print`: the line handed to the print callback. The threshold in the
   * state is not consulted; every call prints.
   */
  function PrintLine(us: int, level: Level, message: string): (line: string)
    ensures var t := Timestamp(us); var word := LevelLabel(level);
      && |line| == |t| + 2 + |word| + 2 + |message|
      && line[..|t|] == t
      && line[|t|..|t| + 2] == " ["
      && line[|t| + 2..|t| + 2 + |word|] == word
      && line[|t| + 2 + |word|..|t| + 4 + |word|] == "] "
      && line[|line| - |message|..] == message
  {
    Assemble(Timestamp(us), LevelLabel(level), message)
  }

  /** The concatenation `print` hands to the callback. */
  function Assemble(t: string, word: string, message: string): (line: string)
    ensures |line| == |t| + 2 + |word| + 2 + |message|
    ensures line[..|t|] == t
    ensures line[|t|..|t| + 2] == " ["
    ensures line[|t| + 2..|t| + 2 + |word|] == word
    ensures line[|t| + 2 + |word|..|t| + 4 + |word|] == "] "
    ensures line[|line| - |message|..] == message
  {
    FiveParts(t, " [", word, "] ", message);
    t + " [" + word + "] " + message
  }

  /** Where each of five concatenated pieces sits in the result. */
  lemma {:induction false} FiveParts(a: string, b: string, c: string, d: string, e: string)
    ensures var s := a + b + c + d + e;
      && |s| == |a| + |b| + |c| + |d| + |e|
      && s[..|a|] == a
      && s[|a|..|a| + |b|] == b
      && s[|a| + |b|..|a| + |b| + |c|] == c
      && s[|a| + |b| + |c|..|a| + |b| + |c| + |d|] == d
      && s[|s| - |e|..] == e
  {
  }

  /**
   * For non-negative counters the printed line loses nothing: the time of
   * day, the level and the message are all recovered from it.
   */
  lemma {:induction false} PrintLineInjective(us1: int, l1: Level, m1: string, us2: int, l2: Level, m2: string)
    requires us1 >= 0 && us2 >= 0
    requires PrintLine(us1, l1, m1) == PrintLine(us2, l2, m2)
    ensures Decompose(us1) == Decompose(us2)
    ensures l1 == l2 && m1 == m2
  {
    TimestampRoundTrip(us1);
    TimestampRoundTrip(us2);
    AssembleInjective(Timestamp(us1), l1, m1, Timestamp(us2), l2, m2);
  }

  /** Timestamps of one length, the level and the message are recovered from an assembled line. */
  lemma {:induction false} AssembleInjective(t1: string, l1: Level, m1: string, t2: string, l2: Level, m2: string)
    requires |t1| == |t2|
    requires Assemble(t1, LevelLabel(l1), m1) == Assemble(t2, LevelLabel(l2), m2)
    ensures t1 == t2 && l1 == l2 && m1 == m2
  {
    var n := |t1|;
    var line := Assemble(t1, LevelLabel(l1), m1);
    assert LevelOfInitial(line[n + 2]) == l1 by {
      assert line[n + 2] == LevelLabel(l1)[0];
    }
    assert LevelOfInitial(line[n + 2]) == l2 by {
      assert line[n + 2] == LevelLabel(l2)[0];
    }
  }

  /** The result of the open or close callback, with the state after the call. */
  datatype Switched = Switched(state: LegacyState, result: bool)

  /** `open`: marks the logger open, whatever the callback answers, and returns the answer. */
  function Open(st: LegacyState, callbackResult: bool): (r: Switched)
    ensures r.state.isOpen
    ensures r.state.logLevel == st.logLevel
    ensures r.result == callbackResult
  {
    Switched(st.(isOpen := true), callbackResult)
  }

  /** `close`: marks the logger closed, whatever the callback answers, and returns the answer. */
  function Close(st: LegacyState, callbackResult: bool): (r: Switched)
    ensures !r.state.isOpen
    ensures r.state.logLevel == st.logLevel
    ensures r.result == callbackResult
  {
    Switched(st.(isOpen := false), callbackResult)
  }

  /** `setLogLevel`: replaces the threshold and nothing else. */
  function SetLevel(st: LegacyState, level: Level): (r: LegacyState)
    ensures r.logLevel == level && r.isOpen == st.isOpen
  {
    st.(logLevel := level)
  }

  /**
   * The flag depends only on the last of the calls: closing after opening
   * leaves the logger closed and opening after closing leaves it open,
   * whatever either callback answered.
   */
  lemma {:induction false} LastSwitchWins(st: LegacyState, a: bool, b: bool)
    ensures !Close(Open(st, a).state, b).state.isOpen
    ensures Open(Close(st, a).state, b).state.isOpen
    ensures Close(Open(st, a).state, b).state == Close(st, b).state
    ensures Open(Close(st, a).state, b).state == Open(st, b).state
  {
  }
}

=== FILE: logger.dfy ===
/**
 * The logger object: a name, a format template tokenized once at
 * construction, and a severity threshold. `Log` is the whole decision of
 * one log call — filter by severity, bound the rendered line, hand it to
 * the sink — as a pure function of the logger, the call's level, the
 * already expanded message text and the timestamp the clock supplies.
 * The sink call is recorded in the outcome instead of being performed.
 *
 * Every string here holds the bytes of the C++ `std::string`, one `char`
 * per byte, so the 255 and 256 bounds count bytes as the program does.
 */
module Logger {
  import opened Types
  import opened Errors
  import opened Decimal
  import opened Tokenizer
  import opened Renderer

  /**
   * The template used when the constructor is given none, the single string
   * "[%YYYY:%MM:%DD:%hh:%mm:%ss.%uuuuuu] [%N] [%L] - %T" written in three
   * stretches.
   */
  const DefaultFormat: string := "[%YYYY:%MM:%DD:%hh:" + "%mm:%ss.%uuuuuu] [" + "%N] [%L] - %T"

  /** Size of the stack buffer the message is expanded into. */
  const BufferSize: nat := 256

  /** Longest line the logger hands to its sink. */
  const MaxOutput: nat := 255

  const Nul: char := '\0'

  datatype EmbedLog = EmbedLog(name: string, format: string, logLevel: LogLevel, tokens: seq<Token>)

  /** The token sequence is the one the template tokenizes to. */
  predicate Valid(l: EmbedLog)
  {
    Tokenizes(l.format) && l.tokens == Tokenize(l.format)
  }

  /**
   * The constructor: remembers name and template, tokenizes the template
   * once, and starts with the threshold None, which lets every level through.
   */
  function Create(name: string, format: string): (l: EmbedLog)
    requires Tokenizes(format)
    ensures Valid(l)
    ensures l.name == name && l.format == format
    ensures forall level :: !LessUrgent(level, l.logLevel)
  {
    EmbedLog(name, format, None, Tokenize(format))
  }

  /** `setLogLevel`: replaces the threshold and nothing else. */
  function SetLogLevel(l: EmbedLog, level: LogLevel): (r: EmbedLog)
    ensures r.logLevel == level
    ensures r.name == l.name && r.format == l.format && r.tokens == l.tokens
    ensures Valid(l) ==> Valid(r)
  {
    l.(logLevel := level)
  }

  /** The part of `s` before its first NUL character. */
  function UpToNul(s: string): (m: string)
    ensures m <= s
    ensures Nul !in m
    ensures |m| < |s| ==> s[|m|] == Nul
  {
    if s == [] || s[0] == Nul then []
    else
      var rest := UpToNul(s[1..]);
      assert s == [s[0]] + s[1..];
      [s[0]] + rest
  }

  /**
   * The message as the logger sees it: `snprintf` into the 256-byte buffer
   * keeps at most 255 characters and a terminator, and the string built
   * from the buffer stops at the first NUL.
   */
  function BufferedMessage(expanded: string): (m: string)
    ensures |m| <= BufferSize - 1
    ensures m <= expanded
    ensures Nul !in m
    ensures |m| == |expanded| || |m| == BufferSize - 1 || expanded[|m|] == Nul
  {
    if |expanded| <= BufferSize - 1 then UpToNul(expanded)
    else UpToNul(expanded[..BufferSize - 1])
  }

  /** The message text that comes out of a buffer is the text that went in. */
  lemma ShortMessageKept(expanded: string)
    requires |expanded| <= MaxOutput && Nul !in expanded
    ensures BufferedMessage(expanded) == expanded
  {
    assert forall j :: 0 <= j < |expanded| ==> expanded[j] != Nul;
  }

  /**
   * The fixed text each result `log` can return comes with. `log` never
   * returns InputLengthError, so it has no text here.
   */
  function ResultMessage(e: EmbedLogErrorType): string
    requires e != InputLengthError
  {
    match e
    case Success => PrintedText
    case OutputLengthError => TooLongText
    case LogLevelError => TooLowText
  }

  const PrintedText: string := "Log message printed successfully."
  const TooLongText: string := "Output string is too long."
  const TooLowText: string := "Log level is too low."

  /** One call of the sink: the line and the level it was logged at. */
  datatype Printed = Printed(line: string, level: LogLevel)

  /** What a log call returns, and the sink calls it made (none or one). */
  datatype Outcome = Outcome(result: EmbedLogError, printed: seq<Printed>)

  /** The line a log call renders with the logger's tokens. */
  function Line(l: EmbedLog, level: LogLevel, expanded: string, ts: TimeStamp): string
    requires CastsSafely(l.tokens, ts)
  {
    FormatOutput(l.tokens, l.name, BufferedMessage(expanded), ts, LogLevelToString(level))
  }

  /**
   * `log`: a message less urgent than the threshold is refused with
   * LogLevelError; a rendered line over 255 characters, style sequences
   * included, is refused with OutputLengthError; otherwise the line goes to
   * the sink exactly once and Success is returned. No path reports an input
   * length error, and the sink is called on the success path only.
   */
  function Log(l: EmbedLog, level: LogLevel, expanded: string, ts: TimeStamp): (o: Outcome)
    requires CastsSafely(l.tokens, ts)
    ensures o.result.error != InputLengthError
    ensures o.result.message == ResultMessage(o.result.error)
    ensures o.result.error == LogLevelError <==> LessUrgent(level, l.logLevel)
    ensures o.result.error == OutputLengthError <==>
      !LessUrgent(level, l.logLevel) && |Line(l, level, expanded, ts)| > MaxOutput
    ensures o.result.error == Success <==>
      !LessUrgent(level, l.logLevel) && |Line(l, level, expanded, ts)| <= MaxOutput
    ensures o.result.error != Success ==> o.printed == []
    ensures o.result.error == Success ==>
      o.printed == [Printed(Line(l, level, expanded, ts), level)] && |o.printed[0].line| <= MaxOutput
  {
    if LessUrgent(level, l.logLevel) then
      Outcome(EmbedLogError(LogLevelError, TooLowText), [])
    else
      var message := BufferedMessage(expanded);
      if |message| > MaxOutput then
        Outcome(EmbedLogError(OutputLengthError, TooLongText), [])
      else
        var output := FormatOutput(l.tokens, l.name, message, ts, LogLevelToString(level));
        if |output| > MaxOutput then
          Outcome(EmbedLogError(OutputLengthError, TooLongText), [])
        else
          Outcome(EmbedLogError(Success, PrintedText), [Printed(output, level)])
  }

  /**
   * The first length check of `log`, on the message straight out of the
   * buffer, never fires: the buffer holds at most 255 characters.
   */
  lemma MessageCheckUnreachable(expanded: string)
    ensures !(|BufferedMessage(expanded)| > MaxOutput)
  {
  }

  /**
   * Raising the threshold never refuses a message that a lower threshold
   * lets through, and the line the sink receives does not depend on it.
   */
  lemma ThresholdMonotone(l: EmbedLog, t: LogLevel, level: LogLevel, expanded: string, ts: TimeStamp)
    requires CastsSafely(l.tokens, ts)
    requires Ordinal(t) >= Ordinal(l.logLevel)
    requires Log(l, level, expanded, ts).result.error == Success
    ensures Log(SetLogLevel(l, t), level, expanded, ts) == Log(l, level, expanded, ts)
  {
  }

  /** After `setLogLevel(t)`, exactly the levels less urgent than `t` are refused. */
  lemma SetLogLevelFilters(l: EmbedLog, t: LogLevel, level: LogLevel, expanded: string, ts: TimeStamp)
    requires CastsSafely(l.tokens, ts)
    ensures Log(SetLogLevel(l, t), level, expanded, ts).result.error == LogLevelError
        <==> Ordinal(level) > Ordinal(t)
    ensures Ordinal(level) > Ordinal(t) ==> Log(SetLogLevel(l, t), level, expanded, ts).printed == []
  {
  }

  /**
   * A threshold of Warning lets Error and Warning through and refuses Info
   * and Debug, whatever the message.
   */
  lemma WarningThreshold(l: EmbedLog, expanded: string, ts: TimeStamp)
    requires CastsSafely(l.tokens, ts)
    ensures Log(SetLogLevel(l, Warning), Info, expanded, ts).result.error == LogLevelError
    ensures Log(SetLogLevel(l, Warning), Debug, expanded, ts).result.error == LogLevelError
    ensures Log(SetLogLevel(l, Warning), Error, expanded, ts).result.error != LogLevelError
    ensures Log(SetLogLevel(l, Warning), Warning, expanded, ts).result.error != LogLevelError
  {
    SetLogLevelFilters(l, Warning, Info, expanded, ts);
    SetLogLevelFilters(l, Warning, Debug, expanded, ts);
    SetLogLevelFilters(l, Warning, Error, expanded, ts);
    SetLogLevelFilters(l, Warning, Warning, expanded, ts);
  }
}

=== FILE: renderer.dfy ===
/**
 * The renderer (`formatOutput`): walks the token sequence and concatenates
 * literal text, styled zero-padded timestamp fields, the logger name, the
 * level label and the message text. The terminal style sequences are part
 * of the output and count toward its length.
 */
module Renderer {
  import opened Types
  import opened Decimal

  /** Largest value of a C++ `int`, the target of the microsecond cast. */
  const IntMax: int := 0x7FFF_FFFF

  /** Digits in the microsecond domain. */
  const MicroDigits: nat := 6

  /**
   * The divisor loop of the Micro case: ten multiplied into one, once for
   * each digit dropped from the six-digit domain.
   */
  method MicroDivisor(width: nat) returns (divisor: nat)
    requires width < MicroDigits
    ensures divisor == Pow10(MicroDigits - width)
  {
    divisor := 1;
    var l := 0;
    while l < MicroDigits - width
      invariant 0 <= l <= MicroDigits - width
      invariant divisor == Pow10(l)
    {
      divisor := divisor * 10;
      l := l + 1;
    }
  }

  /**
   * The microsecond value a Micro token of width `width` shows: the digits
   * beyond the first `width` of the six-digit domain are dropped.
   */
  function EffectiveMicro(micro: nat, width: nat): nat
  {
    if width < MicroDigits then DropDigits(micro, MicroDigits - width) else micro
  }

  /**
   * The shown value is the raw value divided by the divisor the loop of
   * `MicroDivisor` computes, truncating.
   */
  lemma {:induction false} EffectiveMicroDivides(micro: nat, width: nat)
    ensures width < MicroDigits ==> EffectiveMicro(micro, width) == micro / Pow10(MicroDigits - width)
    ensures width >= MicroDigits ==> EffectiveMicro(micro, width) == micro
  {
    if width < MicroDigits {
      DropDigitsDivides(micro, MicroDigits - width);
    }
  }

  /** Every Micro token's value survives the cast to `int` unchanged. */
  predicate CastsSafely(tokens: seq<Token>, ts: TimeStamp)
  {
    forall i :: 0 <= i < |tokens| && tokens[i].kind == Micro ==>
      EffectiveMicro(ts.microseconds, tokens[i].width) <= IntMax
  }

  /** A zero-padded number in the bold white style. */
  function Field(n: nat, width: nat): string
  {
    Bold + FormatNumber(n, width) + Reset
  }

  /** The number a timestamp token shows. */
  function ShownValue(t: Token, ts: TimeStamp): nat
    requires t.kind in {Year, Month, Day, Hour, Minute, Second, Micro}
  {
    match t.kind
    case Year => if t.width == 2 then ts.year % 100 else ts.year
    case Month => ts.month
    case Day => ts.day
    case Hour => ts.hours
    case Minute => ts.minutes
    case Second => ts.seconds
    case Micro => EffectiveMicro(ts.microseconds, t.width)
  }

  /** What one token contributes to the output line. */
  function RenderToken(t: Token, name: string, message: string, ts: TimeStamp, levelStr: string): string
    requires t.kind == Micro ==> EffectiveMicro(ts.microseconds, t.width) <= IntMax
  {
    match t.kind
    case Literal => t.literal
    case Year =>
      if t.width == 2 then Field(ts.year % 100, t.width) else Field(ts.year, t.width)
    case Month => Field(ts.month, t.width)
    case Day => Field(ts.day, t.width)
    case Hour => Field(ts.hours, t.width)
    case Minute => Field(ts.minutes, t.width)
    case Second => Field(ts.seconds, t.width)
    case Micro => Field(EffectiveMicro(ts.microseconds, t.width), t.width)
    case Name => Bold + name + Reset
    case Level => levelStr
    case Text => Reset + message
  }

  /** `formatOutput`: the pieces of all tokens, in order. */
  function FormatOutput(tokens: seq<Token>, name: string, message: string, ts: TimeStamp, levelStr: string): string
    requires CastsSafely(tokens, ts)
  {
    if tokens == [] then ""
    else
      assert tokens[0].kind == Micro ==> EffectiveMicro(ts.microseconds, tokens[0].width) <= IntMax;
      RenderToken(tokens[0], name, message, ts, levelStr)
        + FormatOutput(tokens[1..], name, message, ts, levelStr)
  }

  lemma {:induction false} CastsSafelyAppend(a: seq<Token>, b: seq<Token>, ts: TimeStamp)
    requires CastsSafely(a, ts) && CastsSafely(b, ts)
    ensures CastsSafely(a + b, ts)
  {
    forall i | 0 <= i < |a + b| && (a + b)[i].kind == Micro
      ensures EffectiveMicro(ts.microseconds, (a + b)[i].width) <= IntMax
    {
      if i < |a| { assert (a + b)[i] == a[i]; } else { assert (a + b)[i] == b[i - |a|]; }
    }
  }

  /** Rendering distributes over concatenation of token sequences. */
  lemma {:induction false} FormatOutputAppend(a: seq<Token>, b: seq<Token>, name: string, message: string, ts: TimeStamp, levelStr: string)
    requires CastsSafely(a, ts) && CastsSafely(b, ts)
    ensures CastsSafely(a + b, ts)
    ensures FormatOutput(a + b, name, message, ts, levelStr)
         == FormatOutput(a, name, message, ts, levelStr) + FormatOutput(b, name, message, ts, levelStr)
    decreases |a|
  {
    CastsSafelyAppend(a, b, ts);
    if a == [] {
      assert a + b == b;
    } else {
      HeadOfAppend(a, b);
      CastsSafelyTail(a, ts);
      FormatOutputAppend(a[1..], b, name, message, ts, levelStr);
    }
  }

  /** A non-empty sequence in front of another keeps its head, and its tail goes first in the rest. */
  lemma HeadOfAppend<T>(a: seq<T>, b: seq<T>)
    requires a != []
    ensures (a + b)[0] == a[0]
    ensures (a + b)[1..] == a[1..] + b
  {
  }

  lemma CastsSafelyTail(tokens: seq<Token>, ts: TimeStamp)
    requires tokens != [] && CastsSafely(tokens, ts)
    ensures CastsSafely(tokens[1..], ts)
  {
    var t := tokens[1..];
    forall i | 0 <= i < |t| && t[i].kind == Micro
      ensures EffectiveMicro(ts.microseconds, t[i].width) <= IntMax
    {
      assert t[i] == tokens[i + 1];
    }
  }

  lemma CastsSafelyPrefix(tokens: seq<Token>, k: nat, ts: TimeStamp)
    requires k <= |tokens| && CastsSafely(tokens, ts)
    ensures CastsSafely(tokens[..k], ts)
  {
    var p := tokens[..k];
    forall i | 0 <= i < |p| && p[i].kind == Micro
      ensures EffectiveMicro(ts.microseconds, p[i].width) <= IntMax
    {
      assert p[i] == tokens[i];
    }
  }

  /** Rendering one more token in front: its piece, then the rest. */
  lemma {:induction false} FormatOutputCons(t: Token, rest: seq<Token>, name: string, message: string, ts: TimeStamp, levelStr: string)
    requires t.kind != Micro && CastsSafely(rest, ts)
    ensures CastsSafely([t] + rest, ts)
    ensures FormatOutput([t] + rest, name, message, ts, levelStr)
         == RenderToken(t, name, message, ts, levelStr) + FormatOutput(rest, name, message, ts, levelStr)
  {
    var s := [t] + rest;
    assert s[1..] == rest;
    assert CastsSafely(s, ts) by {
      forall i | 0 <= i < |s| && s[i].kind == Micro
        ensures EffectiveMicro(ts.microseconds, s[i].width) <= IntMax
      {
        assert s[i] == rest[i - 1];
      }
    }
  }

  predicate AllLiteral(tokens: seq<Token>)
  {
    forall i :: 0 <= i < |tokens| ==> tokens[i].kind == Literal
  }

  /** The texts of a sequence of literal tokens, concatenated. */
  function LiteralTexts(tokens: seq<Token>): string
  {
    if tokens == [] then "" else tokens[0].literal + LiteralTexts(tokens[1..])
  }

  /** Literal tokens render as their texts, concatenated, whatever the runtime values. */
  lemma {:induction false} LiteralsRenderVerbatim(tokens: seq<Token>, name: string, message: string, ts: TimeStamp, levelStr: string)
    requires AllLiteral(tokens)
    ensures CastsSafely(tokens, ts)
    ensures FormatOutput(tokens, name, message, ts, levelStr) == LiteralTexts(tokens)
    decreases |tokens|
  {
    if tokens != [] {
      LiteralsRenderVerbatim(tokens[1..], name, message, ts, levelStr);
    }
  }

  /** The layout of a styled field: style, padded digits of `n`, reset. */
  lemma {:induction false} FieldLayout(n: nat, width: nat)
    ensures var piece := Field(n, width);
      && |piece| == 7 + Max(width, |ToDecimal(n)|) + 4
      && piece[..7] == Bold
      && piece[|piece| - 4..] == Reset
      && AllDigits(piece[7..|piece| - 4])
      && Value(piece[7..|piece| - 4]) == n
  {
    var piece := Field(n, width);
    assert piece[7..|piece| - 4] == FormatNumber(n, width);
  }

  /** Every timestamp token renders as the styled field of the value it shows. */
  lemma {:induction false} RendersShownValue(t: Token, name: string, message: string, ts: TimeStamp, levelStr: string)
    requires t.kind in {Year, Month, Day, Hour, Minute, Second, Micro}
    requires t.kind == Micro ==> EffectiveMicro(ts.microseconds, t.width) <= IntMax
    ensures RenderToken(t, name, message, ts, levelStr) == Field(ShownValue(t, ts), t.width)
  {
  }

  /**
   * A timestamp token renders as its value in decimal, zero-padded to the
   * token's width and never cut short, between the bold style and a reset.
   */
  lemma {:induction false} FieldShowsValue(t: Token, name: string, message: string, ts: TimeStamp, levelStr: string)
    requires t.kind in {Year, Month, Day, Hour, Minute, Second, Micro}
    requires t.kind == Micro ==> EffectiveMicro(ts.microseconds, t.width) <= IntMax
    ensures var piece := RenderToken(t, name, message, ts, levelStr);
      && |piece| == 7 + Max(t.width, |ToDecimal(ShownValue(t, ts))|) + 4
      && piece[..7] == Bold
      && piece[|piece| - 4..] == Reset
      && AllDigits(piece[7..|piece| - 4])
      && Value(piece[7..|piece| - 4]) == ShownValue(t, ts)
  {
    RendersShownValue(t, name, message, ts, levelStr);
    FieldLayout(ShownValue(t, ts), t.width);
  }

  /** A two-digit year shows the last two digits of the full year ("%YY" of 2025 is "25"). */
  lemma {:induction false} TwoDigitYear(ts: TimeStamp, name: string, message: string, levelStr: string)
    requires ts.year >= 10
    ensures var full := ToDecimal(ts.year);
      RenderToken(Token(Year, 2, ""), name, message, ts, levelStr) == Bold + full[|full| - 2..] + Reset
  {
    var full := ToDecimal(ts.year);
    DecimalLength(ts.year, 1);
    LastTwoDigits(full);
    assert Pow10(2) == 100;
    FormatNumberExactWidth(ts.year % 100, 2);
    DigitsDetermined(FormatNumber(ts.year % 100, 2), full[|full| - 2..]);
  }

  /**
   * The value a Micro token of width 1 to 6 shows, written with `width`
   * digits, is the leading `width` digits of the six-digit field.
   */
  lemma {:induction false} LeadingDigits(micro: nat, width: nat)
    requires 1 <= width <= MicroDigits
    requires micro < Pow10(MicroDigits)
    ensures FormatNumber(EffectiveMicro(micro, width), width)
         == FormatNumber(micro, MicroDigits)[..width]
  {
    var six := FormatNumber(micro, MicroDigits);
    FormatNumberExactWidth(micro, MicroDigits);
    LeadingDigitsOf(six, width);
  }

  /** Zero-padding the value of the leading digits of a six-digit string gives them back. */
  lemma {:induction false} LeadingDigitsOf(six: string, width: nat)
    requires AllDigits(six) && |six| == MicroDigits
    requires 1 <= width <= MicroDigits
    ensures FormatNumber(EffectiveMicro(Value(six), width), width) == six[..width]
  {
    var lead := six[..width];
    SixDigitPrefix(six, width);
    ValueBound(lead);
    FormatNumberExactWidth(Value(lead), width);
    DigitsDetermined(FormatNumber(Value(lead), width), lead);
  }

  lemma {:induction false} SixDigitPrefix(six: string, width: nat)
    requires AllDigits(six) && |six| == MicroDigits
    requires 1 <= width <= MicroDigits
    ensures AllDigits(six[..width])
    ensures Value(six[..width]) == EffectiveMicro(Value(six), width)
  {
    ValueOfPrefix(six, MicroDigits - width);
    assert six[..|six| - (MicroDigits - width)] == six[..width];
    assert DropDigits(Value(six), 0) == Value(six);
  }

  /**
   * A Micro token of width 1 to 6 shows the leading `width` digits of the
   * six-digit microsecond field: truncated, never rounded ("%uuu" of
   * 654321 is "654").
   */
  lemma {:induction false} MicroShowsLeadingDigits(ts: TimeStamp, width: nat, name: string, message: string, levelStr: string)
    requires 1 <= width <= MicroDigits
    requires ts.microseconds < Pow10(MicroDigits)
    ensures EffectiveMicro(ts.microseconds, width) <= IntMax
    ensures RenderToken(Token(Micro, width, ""), name, message, ts, levelStr)
         == Bold + FormatNumber(ts.microseconds, MicroDigits)[..width] + Reset
  {
    MicroFitsInt(ts.microseconds, width);
    RenderMicro(width, name, message, ts, levelStr);
    MicroField(ts.microseconds, width);
  }

  /** A Micro token renders as the field of its shown value. */
  lemma RenderMicro(width: nat, name: string, message: string, ts: TimeStamp, levelStr: string)
    requires EffectiveMicro(ts.microseconds, width) <= IntMax
    ensures RenderToken(Token(Micro, width, ""), name, message, ts, levelStr)
         == Field(EffectiveMicro(ts.microseconds, width), width)
  {
  }

  /** The field of a truncated microsecond value holds the leading digits of the six. */
  lemma {:induction false} MicroField(micro: nat, width: nat)
    requires 1 <= width <= MicroDigits
    requires micro < Pow10(MicroDigits)
    ensures width <= |FormatNumber(micro, MicroDigits)|
    ensures Field(EffectiveMicro(micro, width), width) == Bold + FormatNumber(micro, MicroDigits)[..width] + Reset
  {
    LeadingDigits(micro, width);
  }

  /** A microsecond value below one second, cut to any width, fits an `int`. */
  lemma {:induction false} MicroFitsInt(micro: nat, width: nat)
    requires micro < Pow10(MicroDigits)
    ensures EffectiveMicro(micro, width) <= IntMax
  {
    if width < MicroDigits {
      DropDigitsShrinks(micro, MicroDigits - width);
    }
    MillionBelowIntMax();
  }

  /** Ten to the sixth, well inside the `int` range. */
  lemma MillionBelowIntMax()
    ensures Pow10(MicroDigits) == 1_000_000 < IntMax
  {
    assert Pow10(2) == 100;
    assert Pow10(4) == 100 * Pow10(2);
  }

  /** A template without '%' renders as itself. */
  lemma {:induction false} PlainRendersVerbatim(tokens: seq<Token>, s: string, name: string, message: string, ts: TimeStamp, levelStr: string)
    requires '%' !in s
    requires tokens == (if s == "" then [] else [Token(Literal, 0, s)])
    ensures CastsSafely(tokens, ts)
    ensures FormatOutput(tokens, name, message, ts, levelStr) == s
  {
    LiteralsRenderVerbatim(tokens, name, message, ts, levelStr);
    if s != "" {
      assert LiteralTexts(tokens) == s + LiteralTexts([]);
    }
  }
}

=== FILE: tokenizer.dfy ===
/**
 * The format-template tokenizer: a left-to-right scan turning a template
 * such as "[%YYYY:%MM] [%N] [%L] - %T" into a token sequence.
 *
 * `ScanStep` is one pass of the scanning loop. `Run` is the loop itself,
 * bounded by fuel, so that its one non-terminating case (a lone '%' at the
 * very end, which pushes an empty literal without advancing) can be stated
 * and proved. `Tokenize` is the total scan for the templates on which the
 * loop terminates. In the program each non-advancing pass still pushes a
 * token, so that case ends when memory runs out; the fuel bound stands in
 * for that limit.
 */
module Tokenizer {
  import opened Types
  import opened Decimal

  /** Token kind named by a directive character; any other character is Literal. */
  function KindOf(c: char): TokenType
  {
    match c
    case 'Y' => Year
    case 'M' => Month
    case 'D' => Day
    case 'h' => Hour
    case 'm' => Minute
    case 's' => Second
    case 'u' => Micro
    case 'N' => Name
    case 'L' => Level
    case 'T' => Text
    case _ => Literal
  }

  /** The character that names a directive kind. */
  function DirectiveChar(k: TokenType): (c: char)
    requires k != Literal
    ensures KindOf(c) == k
    ensures c != '%'
  {
    match k
    case Year => 'Y'
    case Month => 'M'
    case Day => 'D'
    case Hour => 'h'
    case Minute => 'm'
    case Second => 's'
    case Micro => 'u'
    case Name => 'N'
    case Level => 'L'
    case Text => 'T'
  }

  /** Exactly ten characters are directives, each naming its own kind. */
  lemma DirectiveCharRoundTrip(c: char)
    requires KindOf(c) != Literal
    ensures DirectiveChar(KindOf(c)) == c
    ensures c in "YMDhmsuNLT"
  {
  }

  /** End of the maximal run of `c` that starts at `j`. */
  function RunEnd(s: string, j: nat, c: char): (k: nat)
    requires j <= |s|
    ensures j <= k <= |s|
    ensures forall m :: j <= m < k ==> s[m] == c
    ensures k < |s| ==> s[k] != c
    decreases |s| - j
  {
    if j < |s| && s[j] == c then RunEnd(s, j + 1, c) else j
  }

  /** End of the '%'-free stretch that starts at `i`. */
  function LiteralEnd(s: string, i: nat): (k: nat)
    requires i <= |s|
    ensures i <= k <= |s|
    ensures forall m :: i <= m < k ==> s[m] != '%'
    ensures k < |s| ==> s[k] == '%'
    decreases |s| - i
  {
    if i < |s| && s[i] != '%' then LiteralEnd(s, i + 1) else i
  }

  /** The token one loop pass pushes, and the index it leaves the scan at. */
  datatype Step = Step(token: Token, next: nat)

  /** The scan sits on a '%' that is the last character of the template. */
  predicate LoneTrailingPercent(s: string, i: nat)
  {
    i + 1 == |s| && s[i] == '%'
  }

  /** One pass of the scanning loop, from index `i`. */
  function ScanStep(s: string, i: nat): (st: Step)
    requires i < |s|
    ensures st.next <= |s|
    // "%%" is the escape for one '%' and consumes exactly two characters
    ensures s[i] == '%' && i + 1 < |s| && s[i + 1] == '%' ==>
      st.token == Token(Literal, 0, "%") && st.next == i + 2
    // "%c...c": the width is the length of the maximal run of c
    ensures s[i] == '%' && i + 1 < |s| && s[i + 1] != '%' ==>
      && st.next > i + 1
      && st.token.width == st.next - (i + 1)
      && (forall m :: i + 1 <= m < st.next ==> s[m] == s[i + 1])
      && (st.next < |s| ==> s[st.next] != s[i + 1])
      && st.token.kind == KindOf(s[i + 1])
      && st.token.literal == (if st.token.kind == Literal then s[i..st.next] else "")
    // plain text runs up to the next '%'
    ensures s[i] != '%' ==>
      && st.next > i
      && st.token == Token(Literal, 0, s[i..st.next])
      && (forall m :: i <= m < st.next ==> s[m] != '%')
      && (st.next < |s| ==> s[st.next] == '%')
    // a lone '%' at the end pushes an empty literal and does not advance
    ensures LoneTrailingPercent(s, i) ==> st.token == Token(Literal, 0, "") && st.next == i
    ensures st.next > i <==> !LoneTrailingPercent(s, i)
  {
    if s[i] == '%' && i + 1 < |s| && s[i + 1] == '%' then
      Step(Token(Literal, 0, "%"), i + 2)
    else if s[i] == '%' && i + 1 < |s| then
      var c := s[i + 1];
      var k := RunEnd(s, i + 1, c);
      var kind := KindOf(c);
      Step(Token(kind, k - (i + 1), if kind == Literal then s[i..k] else ""), k)
    else
      var k := LiteralEnd(s, i);
      Step(Token(Literal, 0, s[i..k]), k)
  }

  /** A directive pass is fixed by the run of its character: it ends where the run ends. */
  lemma DirectiveStep(s: string, i: nat, w: nat)
    requires w >= 1 && i + 1 + w <= |s|
    requires s[i] == '%' && s[i + 1] != '%'
    requires forall m :: i + 1 <= m < i + 1 + w ==> s[m] == s[i + 1]
    requires i + 1 + w < |s| ==> s[i + 1 + w] != s[i + 1]
    ensures ScanStep(s, i) == Step(
      Token(KindOf(s[i + 1]), w, if KindOf(s[i + 1]) == Literal then s[i..i + 1 + w] else ""), i + 1 + w)
  {
    assert ScanStep(s, i).next == i + 1 + w;
  }

  /** A plain-text pass is fixed by the stretch without '%': it ends at the next '%'. */
  lemma LiteralStep(s: string, i: nat, k: nat)
    requires i < k <= |s|
    requires forall m :: i <= m < k ==> s[m] != '%'
    requires k < |s| ==> s[k] == '%'
    ensures ScanStep(s, i) == Step(Token(Literal, 0, s[i..k]), k)
  {
    assert s[i] != '%';
    assert ScanStep(s, i).next == k;
  }

  /** Length of the run of '%' that ends the template. */
  function TrailingPercents(s: string): (t: nat)
    ensures t <= |s|
    ensures forall m :: |s| - t <= m < |s| ==> s[m] == '%'
    ensures t < |s| ==> s[|s| - t - 1] != '%'
  {
    if |s| > 0 && s[|s| - 1] == '%' then 1 + TrailingPercents(s[..|s| - 1]) else 0
  }

  /**
   * The templates on which the scanning loop terminates: the run of '%'
   * that ends the template pairs off completely into "%%" escapes.
   */
  predicate Tokenizes(s: string)
  {
    TrailingPercents(s) % 2 == 0
  }

  /** Scan positions from which the loop reaches the end of a terminating template. */
  predicate Safe(s: string, i: nat)
  {
    && Tokenizes(s)
    && i <= |s|
    && (i >= |s| - TrailingPercents(s) ==> (|s| - i) % 2 == 0)
  }

  /** Scan positions from which the loop ends up stuck on the last '%'. */
  predicate Doomed(s: string, i: nat)
  {
    && TrailingPercents(s) % 2 == 1
    && i < |s|
    && (i >= |s| - TrailingPercents(s) ==> (|s| - i) % 2 == 1)
  }

  /** From a safe position every pass advances and keeps the scan safe. */
  lemma StepKeepsSafe(s: string, i: nat)
    requires Safe(s, i) && i < |s|
    ensures ScanStep(s, i).next > i
    ensures Safe(s, ScanStep(s, i).next)
  {
    var n, t := |s|, TrailingPercents(s);
    var k := ScanStep(s, i).next;
    if LoneTrailingPercent(s, i) {
      assert false;
    } else if s[i] == '%' && s[i + 1] == '%' {
      if i < n - t {
        assert s[n - t - 1] != '%';
        assert k < n - t;
      }
    } else if k < n {
      assert s[k - 1] != '%';
      assert k <= n - t;
    }
  }

  /** From a doomed position the next pass leaves the scan doomed. */
  lemma {:induction false} StepKeepsDoomed(s: string, i: nat)
    requires Doomed(s, i)
    ensures Doomed(s, ScanStep(s, i).next)
  {
    var k := ScanStep(s, i).next;
    if LoneTrailingPercent(s, i) {
      assert k == i;
    } else if s[i] == '%' && s[i + 1] == '%' {
      PercentPairKeepsDoomed(s, i);
    } else {
      assert s[k - 1] != '%';
      AfterPlainCharDoomed(s, k);
    }
  }

  /** Skipping a "%%" escape from a doomed position stays doomed. */
  lemma {:induction false} PercentPairKeepsDoomed(s: string, i: nat)
    requires Doomed(s, i) && i + 1 < |s|
    requires s[i] == '%' && s[i + 1] == '%'
    ensures Doomed(s, i + 2)
  {
    var n, t := |s|, TrailingPercents(s);
    assert s[n - 1] == '%';
    if i < n - t {
      assert s[n - t - 1] != '%';
      assert i + 2 < n - t;
    }
  }

  /** Just after a character other than '%', a template with an odd trailing run is doomed. */
  lemma {:induction false} AfterPlainCharDoomed(s: string, k: nat)
    requires TrailingPercents(s) % 2 == 1
    requires 0 < k <= |s| && s[k - 1] != '%'
    ensures Doomed(s, k)
  {
    var n, t := |s|, TrailingPercents(s);
    assert s[n - 1] == '%';
    assert k - 1 < n - t;
  }

  /** The tokens of a terminating template from scan position `i` on. */
  function TokenizeFrom(s: string, i: nat): (tokens: seq<Token>)
    requires Safe(s, i)
    ensures forall j :: 0 <= j < |tokens| ==> WellFormed(tokens[j])
    decreases |s| - i
  {
    if i == |s| then []
    else
      var st := ScanStep(s, i);
      StepKeepsSafe(s, i);
      assert WellFormed(st.token) by { StepWellFormed(s, i); }
      [st.token] + TokenizeFrom(s, st.next)
  }

  /** `tokenizeFormat` for a template on which it terminates. */
  function Tokenize(s: string): (tokens: seq<Token>)
    requires Tokenizes(s)
    ensures forall j :: 0 <= j < |tokens| ==> WellFormed(tokens[j])
  {
    TokenizeFrom(s, 0)
  }

  /**
   * The shapes the scan can produce: a directive has width at least one and
   * no text; a literal is the "%%" escape, a non-empty '%'-free stretch, or
   * an unknown directive passed through as '%' and its run.
   */
  predicate WellFormed(t: Token)
  {
    if t.kind != Literal then t.width >= 1 && t.literal == ""
    else if t.width == 0 then t.literal == "%" || (t.literal != "" && '%' !in t.literal)
    else
      && |t.literal| == t.width + 1
      && t.literal[0] == '%'
      && t.literal[1] != '%'
      && KindOf(t.literal[1]) == Literal
      && forall m :: 1 <= m < |t.literal| ==> t.literal[m] == t.literal[1]
  }

  lemma StepWellFormed(s: string, i: nat)
    requires i < |s| && !LoneTrailingPercent(s, i)
    ensures WellFormed(ScanStep(s, i).token)
  {
    var st := ScanStep(s, i);
    if s[i] != '%' {
      assert st.token.literal[0] == s[i];
      assert forall m :: 0 <= m < |st.token.literal| ==> st.token.literal[m] == s[i + m];
    }
  }

  /** The template text a token was scanned from. */
  function SourceText(t: Token): string
  {
    if t.kind != Literal then "%" + Repeat(DirectiveChar(t.kind), t.width)
    else if t.width == 0 && t.literal == "%" then "%%"
    else t.literal
  }

  /** Reassembles a template from its tokens. */
  function Untokenize(tokens: seq<Token>): string
  {
    if tokens == [] then "" else SourceText(tokens[0]) + Untokenize(tokens[1..])
  }

  /** Each pass consumes exactly the text its token stands for. */
  lemma StepSourceText(s: string, i: nat)
    requires i < |s| && !LoneTrailingPercent(s, i)
    ensures SourceText(ScanStep(s, i).token) == s[i..ScanStep(s, i).next]
  {
    var st := ScanStep(s, i);
    if s[i] == '%' && s[i + 1] != '%' && st.token.kind != Literal {
      var c := s[i + 1];
      DirectiveCharRoundTrip(c);
      assert s[i..st.next] == "%" + Repeat(c, st.token.width);
    } else if s[i] != '%' {
      assert '%' !in st.token.literal by {
        assert forall m :: 0 <= m < |st.token.literal| ==> st.token.literal[m] == s[i + m];
      }
    }
  }

  lemma UntokenizeCons(t: Token, rest: seq<Token>)
    ensures Untokenize([t] + rest) == SourceText(t) + Untokenize(rest)
  {
    assert ([t] + rest)[1..] == rest;
  }

  /** One pass, seen through `Untokenize`: the consumed text comes first. */
  lemma {:induction false} UntokenizeStep(s: string, i: nat) returns (next: nat)
    requires Safe(s, i) && i < |s|
    ensures i < next <= |s| && Safe(s, next)
    ensures Untokenize(TokenizeFrom(s, i)) == s[i..next] + Untokenize(TokenizeFrom(s, next))
  {
    var st := ScanStep(s, i);
    next := st.next;
    StepKeepsSafe(s, i);
    var rest := TokenizeFrom(s, next);
    assert TokenizeFrom(s, i) == [st.token] + rest;
    UntokenizeCons(st.token, rest);
    StepSourceText(s, i);
  }

  lemma {:induction false} UntokenizeFrom(s: string, i: nat)
    requires Safe(s, i)
    ensures Untokenize(TokenizeFrom(s, i)) == s[i..]
    decreases |s| - i
  {
    if i < |s| {
      var next := UntokenizeStep(s, i);
      UntokenizeFrom(s, next);
      SplitAt(s, i, next);
    }
  }

  lemma SplitAt(s: string, i: nat, j: nat)
    requires i <= j <= |s|
    ensures s[i..] == s[i..j] + s[j..]
  {
  }

  /** Tokenizing loses nothing: the template is recovered from its tokens. */
  lemma TokenizeRoundTrip(s: string)
    requires Tokenizes(s)
    ensures Untokenize(Tokenize(s)) == s
  {
    UntokenizeFrom(s, 0);
  }

  /** Different templates never tokenize alike. */
  lemma TokenizeInjective(a: string, b: string)
    requires Tokenizes(a) && Tokenizes(b)
    requires Tokenize(a) == Tokenize(b)
    ensures a == b
  {
    TokenizeRoundTrip(a);
    TokenizeRoundTrip(b);
  }

  /** A template without '%' is one literal token holding all of it (none if empty). */
  lemma PlainTemplate(s: string)
    requires '%' !in s
    ensures Tokenizes(s)
    ensures Tokenize(s) == if s == "" then [] else [Token(Literal, 0, s)]
  {
    if s != "" {
      assert s[|s| - 1] in s;
      assert Safe(s, 0);
      var st := ScanStep(s, 0);
      assert s[0] in s;
      assert forall m :: 0 <= m < |s| ==> s[m] in s;
      assert s[0..|s|] == s;
      assert Tokenize(s) == [st.token] + TokenizeFrom(s, |s|);
    }
  }

  /** How a bounded run of the scanning loop ends. */
  datatype ScanResult = Finished(tokens: seq<Token>) | OutOfFuel

  /** The scanning loop from index `i`, allowed at most `fuel` passes. */
  function Run(s: string, i: nat, fuel: nat): ScanResult
    requires i <= |s|
    decreases fuel
  {
    if i == |s| then Finished([])
    else if fuel == 0 then OutOfFuel
    else
      var st := ScanStep(s, i);
      match Run(s, st.next, fuel - 1)
      case Finished(rest) => Finished([st.token] + rest)
      case OutOfFuel => OutOfFuel
  }

  lemma {:induction false} RunFinishes(s: string, i: nat, fuel: nat)
    requires Safe(s, i) && fuel >= |s| - i
    ensures Run(s, i, fuel) == Finished(TokenizeFrom(s, i))
    decreases |s| - i
  {
    if i < |s| {
      StepKeepsSafe(s, i);
      RunFinishes(s, ScanStep(s, i).next, fuel - 1);
    }
  }

  lemma {:induction false} RunNeverFinishes(s: string, i: nat, fuel: nat)
    requires Doomed(s, i)
    ensures Run(s, i, fuel) == OutOfFuel
    decreases fuel
  {
    if fuel > 0 {
      StepKeepsDoomed(s, i);
      RunNeverFinishes(s, ScanStep(s, i).next, fuel - 1);
    }
  }

  /**
   * The scanning loop terminates exactly on the templates `Tokenize`
   * accepts, with `Tokenize`'s result; on every other template (one that
   * ends in an odd run of '%') no number of passes suffices.
   */
  lemma LoopTerminatesIff(s: string)
    ensures Tokenizes(s) ==> Run(s, 0, |s|) == Finished(Tokenize(s))
    ensures !Tokenizes(s) ==> forall fuel: nat :: Run(s, 0, fuel) == OutOfFuel
  {
    if Tokenizes(s) {
      RunFinishes(s, 0, |s|);
    } else {
      forall fuel: nat ensures Run(s, 0, fuel) == OutOfFuel {
        RunNeverFinishes(s, 0, fuel);
      }
    }
  }
}

=== FILE: types.dfy ===
/**
 * Severity levels, their display labels, the timestamp record and the
 * token vocabulary of the format mini-language.
 */
module Types {

  /** Fixed-width unsigned integers of the timestamp record. */
  type uint8 = x: int | 0 <= x < 0x100
  type uint16 = x: int | 0 <= x < 0x1_0000
  type uint64 = x: int | 0 <= x < 0x1_0000_0000_0000_0000

  /** The escape character that starts every terminal colour sequence. */
  const Esc: char := '\U{1B}'

  /** Bold bright white, the style wrapped around every rendered field. */
  const Bold: string := [Esc] + "[1;97m"

  /** Resets every terminal attribute. */
  const Reset: string := [Esc] + "[0m"

  /** Severity of a log call; a smaller ordinal is more urgent. */
  datatype LogLevel = Alert | Critical | Error | Warning | Notice | Info | Debug | Trace | None

  function Ordinal(level: LogLevel): (o: uint8)
    ensures o <= 8
    ensures o == 8 <==> level == None
  {
    match level
    case Alert => 0
    case Critical => 1
    case Error => 2
    case Warning => 3
    case Notice => 4
    case Info => 5
    case Debug => 6
    case Trace => 7
    case None => 8
  }

  /** The enumerator whose underlying value is `o`. */
  function FromOrdinal(o: uint8): (level: LogLevel)
    requires o <= 8
    ensures Ordinal(level) == o
  {
    if o == 0 then Alert
    else if o == 1 then Critical
    else if o == 2 then Error
    else if o == 3 then Warning
    else if o == 4 then Notice
    else if o == 5 then Info
    else if o == 6 then Debug
    else if o == 7 then Trace
    else None
  }

  /** The enumerators and their underlying values are in one-to-one correspondence. */
  lemma OrdinalRoundTrip(level: LogLevel)
    ensures FromOrdinal(Ordinal(level)) == level
  {
  }

  /**
   * `a` is filtered out by threshold `b`: the enum class comparison
   * `a > b` on the underlying values.
   */
  predicate LessUrgent(a: LogLevel, b: LogLevel)
  {
    Ordinal(a) > Ordinal(b)
  }

  /** Upper-case name of a level. */
  function LevelName(level: LogLevel): string
  {
    match level
    case Alert => "ALERT"
    case Critical => "CRITICAL"
    case Error => "ERROR"
    case Warning => "WARNING"
    case Notice => "NOTICE"
    case Info => "INFO"
    case Debug => "DEBUG"
    case Trace => "TRACE"
    case None => "NONE"
  }

  /** A seven-character bold bright colour sequence `ESC [ 1 ; 9 x m`. */
  predicate IsBrightColour(p: string)
  {
    |p| == 7 && p[0] == Esc && p[1..5] == "[1;9" && '0' <= p[5] <= '9' && p[6] == 'm'
  }

  /** `name` in the bright colour with digit `code`, followed by two resets. */
  function BrightLabel(code: char, name: string): (s: string)
    requires '0' <= code <= '9'
    ensures |s| == 7 + |name| + 8
    ensures IsBrightColour(s[..7])
    ensures s[7..|s| - 8] == name
    ensures s[|s| - 8..] == Reset + Reset
  {
    var colour := [Esc] + "[1;9" + [code] + "m";
    assert colour[1..5] == "[1;9";
    colour + name + Reset + Reset
  }

  /**
   * Display label of a level: every real level is its upper-case name in a
   * bright colour followed by two resets; None is the bare word.
   */
  function LogLevelToString(level: LogLevel): (s: string)
    ensures level == None ==> s == "NONE"
    ensures level != None ==>
      && |s| == 7 + |LevelName(level)| + 8
      && IsBrightColour(s[..7])
      && s[7..|s| - 8] == LevelName(level)
      && s[|s| - 8..] == Reset + Reset
  {
    match level
    case Alert => BrightLabel('1', "ALERT")
    case Critical => BrightLabel('5', "CRITICAL")
    case Error => BrightLabel('1', "ERROR")
    case Warning => BrightLabel('3', "WARNING")
    case Notice => BrightLabel('6', "NOTICE")
    case Info => BrightLabel('2', "INFO")
    case Debug => BrightLabel('4', "DEBUG")
    case Trace => BrightLabel('7', "TRACE")
    case None => "NONE"
  }

  /** The real level whose name starts with `c`; each starts with its own letter. */
  function LevelOfInitial(c: char): LogLevel
  {
    match c
    case 'A' => Alert
    case 'C' => Critical
    case 'E' => Error
    case 'W' => Warning
    case 'I' => Info
    case 'D' => Debug
    case 'T' => Trace
    case _ => Notice
  }

  /** Reads the level back from a label: coloured labels by their name's initial. */
  function LevelOfLabel(s: string): LogLevel
  {
    if |s| > 7 && s[0] == Esc then LevelOfInitial(s[7]) else None
  }

  /** Every label names its level unambiguously. */
  lemma LabelRoundTrip(level: LogLevel)
    ensures LevelOfLabel(LogLevelToString(level)) == level
  {
    var s := LogLevelToString(level);
    if level != None {
      assert s[7] == LevelName(level)[0];
    }
  }

  /** Distinct levels get distinct labels. */
  lemma LabelsInjective(a: LogLevel, b: LogLevel)
    ensures a != b ==> LogLevelToString(a) != LogLevelToString(b)
  {
    LabelRoundTrip(a);
    LabelRoundTrip(b);
  }

  /**
   * The label switch applied to a raw underlying value: the `default`
   * branch answers "UNKNOWN".
   */
  function LabelOfValue(o: uint8): (s: string)
    ensures s == "UNKNOWN" <==> o > 8
    ensures o <= 8 ==> LevelOfLabel(s) == FromOrdinal(o)
  {
    if o <= 8 then
      var level := FromOrdinal(o);
      LabelRoundTrip(level);
      LabelNotUnknown(level);
      LogLevelToString(level)
    else "UNKNOWN"
  }

  /** No level's label is the word "UNKNOWN". */
  lemma LabelNotUnknown(level: LogLevel)
    ensures LogLevelToString(level) != "UNKNOWN"
  {
    var s := LogLevelToString(level);
    if level != None {
      assert s[0] == Esc;
    }
  }

  /** The "UNKNOWN" default is never taken for a value of the enum. */
  lemma UnknownUnreachable(level: LogLevel)
    ensures LabelOfValue(Ordinal(level)) != "UNKNOWN"
    ensures LabelOfValue(Ordinal(level)) == LogLevelToString(level)
  {
    OrdinalRoundTrip(level);
  }

  /** Decomposed time supplied by the clock collaborator. */
  datatype TimeStamp = TimeStamp(
    microseconds: uint64,
    seconds: uint8,
    minutes: uint8,
    hours: uint8,
    day: uint8,
    month: uint8,
    year: uint16)

  /** What a piece of the format template stands for. */
  datatype TokenType = Literal | Year | Month | Day | Hour | Minute | Second | Micro | Name | Level | Text

  /** Every token kind, each once. */
  const AllTokenTypes: seq<TokenType> :=
    [Literal, Year, Month, Day, Hour, Minute, Second, Micro, Name, Level, Text]

  /** There are exactly eleven token kinds: Literal and ten directives. */
  lemma ElevenTokenTypes(k: TokenType)
    ensures k in AllTokenTypes
    ensures |AllTokenTypes| == 11
    ensures forall i, j :: 0 <= i < j < |AllTokenTypes| ==> AllTokenTypes[i] != AllTokenTypes[j]
  {
  }

  /**
   * One parsed piece of the template. `width` is the repeat count of the
   * directive character; `literal` holds text only for Literal tokens.
   */
  datatype Token = Token(kind: TokenType, width: nat, literal: string)
}
